=== FILE: README.md ===
# Call-Log-Analyzer in Dafny

This project models the logic of the Call-Log-Analyzer Android app and proves
properties of it. The app reads the phone's call log and lists every call.
For each phone number it sums the calls and the talk time. It also counts
incoming, outgoing and missed calls, and it shows a statistics screen: a bar
chart of the five contacts with the longest total talk time, a list of every
contact sorted by name, and a pie chart of the call types.

The Android plumbing is replaced by plain inputs:

- The call-log cursor is a sequence of `Row`s: number, type code as text,
  date, and duration as text.
- The contacts lookup is a total function `Resolver`, from a number to an
  optional display name.
- A `HashMap`'s iteration order is a parameter `order` that lists every key
  once.

Modules, one per concern:

| module | file | what it holds |
|---|---|---|
| `Wrappers` | wrappers.dfy | `Option` and `Result` |
| `JavaInt` | java_int.dfy | Java `int` semantics: 32-bit wrap-around, truncating `/` and `%`, `Integer.parseInt` and `Integer.toString` |
| `JavaString` | java_string.dfy | `String.split` on a single literal delimiter, and the `compareTo` order |
| `Sorting` | sorting.dfy | `List.sort` as an insertion sort over a comparator |
| `HashMaps` | hash_map.dfy | iteration orders of a `HashMap` |
| `Contacts` | contacts.dfy | `ContactStats` and `addCall` |
| `CallLogItems` | call_log_item.dfy | `CallLogItem` and the count-and-total field of a "STATS" row |
| `Aggregation` | aggregation.dfy | the loop of `loadCallLogsInBackground` and `getContactName` |
| `Adapter` | adapter.dfy | `CallLogAdapter`: both duration formatters, the type colours, and binding a row |
| `Statistics` | statistics.dfy | `StatisticsActivity`: the bar chart, the sorted list and the `onCreate` guards |
| `MainScreen` | main_screen.dfy | MainActivity's fields across reloads, `showStats`, and the path from the call log to both screens |

`CallLogItem` and `ContactStats` are immutable datatypes. A getter is the
datatype's destructor, so it returns its constructor argument by
construction. Building an item checks nothing and cannot fail. A
`ContactStats` value changes only through `AddCall`, which keeps its name
and number.

The aggregation pass is the fold `Aggregation.Aggregate`. One forward step
does what one loop iteration does, in the same order:

1. look the name up through the cache;
2. parse the type code and bump its counter;
3. append the item;
4. parse the duration;
5. fold the duration into the number's stats entry.

A text that `Integer.parseInt` rejects ends the pass with `Err`. The error
carries the counter values the worker had already written into the
activity's fields. The main theorem, `AggregateSummarises`, states that the
pass succeeds exactly when every type and duration text parses. In that case
its list, map, cache and counters equal independent row-by-row reference
definitions.

Behaviours of the code worth knowing:

- A duration text that is not an integer aborts the whole pass; it is not
  counted as zero.
- A missing cursor resets the counters and publishes nothing. The list and
  the map keep their old contents; they are not emptied.
- The call log shows a duration of 7800 seconds as "130m 0s": its formatter
  never prints hours. "2h 10m" is what the statistics list prints for a
  contact's total of 7800 seconds. Both are proved, in
  `Adapter.LogDurationExamples` and `Adapter.StatsDurationExamples`.

In the table below, each source cell names a file of the repository, by its
path from the repository root, and the lines the member models.

## Model

| member | source | states |
|---|---|---|
| JavaInt.Wrap | app/src/main/java/com/example/phonecallloganalyzer/ContactStats.java:19-22 | an `int` result agrees with the exact value modulo 2^32, and equals it whenever the exact value fits |
| JavaInt.WrapAdd | app/src/main/java/com/example/phonecallloganalyzer/ContactStats.java:20-21 | adding to an already wrapped value wraps like adding to the exact one, so a chain of `++` and `+=` wraps only once |
| JavaInt.Quot | app/src/main/java/com/example/phonecallloganalyzer/CallLogAdapter.java:113-114 | Java's `/` truncates toward zero: the remainder lies in [0, b) for a non-negative dividend and in (-b, 0] for a negative one |
| JavaInt.Rem | app/src/main/java/com/example/phonecallloganalyzer/CallLogAdapter.java:114 | Java's `%` satisfies a == b·(a/b) + a%b and takes the sign of the dividend |
| JavaInt.ParseInt | app/src/main/java/com/example/phonecallloganalyzer/MainActivity.java:139 | `Integer.parseInt` accepts a text exactly when it is an optional sign, "-" or "+", followed by at least one digit and its value fits in an `int`; the value is the digits' value with that sign |
| JavaInt.ParseStr | app/src/main/java/com/example/phonecallloganalyzer/CallLogAdapter.java:51 | `Integer.parseInt` reads back exactly the `int` that string concatenation printed |
| JavaInt.Str | app/src/main/java/com/example/phonecallloganalyzer/StatisticsActivity.java:70 | `Integer.toString` prints a leading "-" exactly for a negative number and digits everywhere else, with no leading zero: "0" is the only text that starts with "0", and no digit run after a "-" starts with "0"; `ParseStr` proves that `parseInt` reads it back |
| JavaInt.NatStrValue | app/src/main/java/com/example/phonecallloganalyzer/StatisticsActivity.java:70 | the decimal digits printed for a natural number have that number as their value |
| JavaInt.StrAvoids | app/src/main/java/com/example/phonecallloganalyzer/StatisticsActivity.java:70 | a printed `int` contains no character other than a sign and digits, so never the stats separator |
| JavaString.Fields | app/src/main/java/com/example/phonecallloganalyzer/CallLogAdapter.java:48 | the fields between delimiters contain no delimiter, and joining them back with it gives the original text |
| JavaString.Split | app/src/main/java/com/example/phonecallloganalyzer/CallLogAdapter.java:48 | `split` yields the text itself when the delimiter is absent, and otherwise a prefix of the fields that ends in a non-empty field and drops only empty ones |
| JavaString.SplitPair | app/src/main/java/com/example/phonecallloganalyzer/CallLogAdapter.java:48-49 | splitting `a` + delimiter + `b` gives exactly the two parts `[a, b]` when neither contains the delimiter and `b` is not empty |
| JavaString.NotAfter | app/src/main/java/com/example/phonecallloganalyzer/StatisticsActivity.java:75 | the by-first-character order of names agrees with `compareTo(...) <= 0`, where `compareTo` is the difference of the first differing characters or else of the lengths; `NotAfterTotal`, `NotAfterTransitive` and `NotAfterAntisymmetric` make it an order |
| JavaString.NotAfterTotal | app/src/main/java/com/example/phonecallloganalyzer/StatisticsActivity.java:75 | of any two names, one sorts no later than the other under `compareTo` |
| JavaString.NotAfterTransitive | app/src/main/java/com/example/phonecallloganalyzer/StatisticsActivity.java:75 | the `compareTo` order is transitive |
| JavaString.NotAfterAntisymmetric | app/src/main/java/com/example/phonecallloganalyzer/StatisticsActivity.java:75 | two names that each sort no later than the other are equal |
| Sorting.Insert | app/src/main/java/com/example/phonecallloganalyzer/StatisticsActivity.java:75 | inserting into a sorted list keeps it sorted and adds exactly the one element |
| Sorting.SortBy | app/src/main/java/com/example/phonecallloganalyzer/StatisticsActivity.java:75 | `List.sort` with a total, transitive comparator returns a permutation of its input that is in comparator order |
| HashMaps.OccursOnce | app/src/main/java/com/example/phonecallloganalyzer/StatisticsActivity.java:69 | iterating over a map visits each key exactly once |
| HashMaps.EnumerationSize | app/src/main/java/com/example/phonecallloganalyzer/StatisticsActivity.java:85 | an iteration over a map has as many entries as the map has keys |
| Contacts.Fresh | app/src/main/java/com/example/phonecallloganalyzer/ContactStats.java:12-17 | a new entry keeps its name and number and starts with no calls and no talk time |
| Contacts.AddCall | app/src/main/java/com/example/phonecallloganalyzer/ContactStats.java:19-22 | `addCall(d)` keeps name and number, adds one call and `d` seconds modulo 2^32, and exactly so when nothing overflows |
| Contacts.AddCallWrapped | app/src/main/java/com/example/phonecallloganalyzer/ContactStats.java:19-22 | one more call on counters that hold wrapped exact values keeps them the wrapped exact values |
| Contacts.AddCallsCounts | app/src/main/java/com/example/phonecallloganalyzer/ContactStats.java:8-22 | after calls d1..dk on a new entry the count is k and the total is d1+...+dk, both as Java `int`s |
| Contacts.AddCallsExact | app/src/main/java/com/example/phonecallloganalyzer/ContactStats.java:19-22 | without overflow, the count is exactly k and the total exactly the sum |
| Aggregation.Label | app/src/main/java/com/example/phonecallloganalyzer/MainActivity.java:139-155 | a type code is labelled "Other" exactly when it is none of the three known codes; `LabelClassifies` gives each known code its own label |
| Aggregation.Tick | app/src/main/java/com/example/phonecallloganalyzer/MainActivity.java:138-155 | a parsed type bumps exactly the counter its label names, by one, and an "Other" type bumps none |
| Aggregation.LabelClassifies | app/src/main/java/com/example/phonecallloganalyzer/MainActivity.java:139-155 | each of the three known codes gets its own label and every other code gets "Other" |
| Aggregation.GetContactName | app/src/main/java/com/example/phonecallloganalyzer/MainActivity.java:207-225 | a cache hit returns the cached name without a lookup; a miss looks up once, falls back to the number, stores the result and keeps every other entry; a cache of resolved names stays one |
| Aggregation.FirstBad | app/src/main/java/com/example/phonecallloganalyzer/MainActivity.java:130-162 | the row where the loop throws is the first whose type or duration text does not parse, and every row before it parses |
| Aggregation.StepEntry | app/src/main/java/com/example/phonecallloganalyzer/MainActivity.java:160-161 | `computeIfAbsent(...).addCall(d)` leaves every entry holding its number's call count and summed duration |
| Aggregation.StepCache | app/src/main/java/com/example/phonecallloganalyzer/MainActivity.java:136 | one lookup keeps the cache holding exactly the numbers seen, each with its resolved name, and keeps the lookups one per distinct number |
| Aggregation.TallySnoc | app/src/main/java/com/example/phonecallloganalyzer/MainActivity.java:139-155 | one more row with a parsed code adds one to that code's counter, if it has one, and nothing to the others |
| Aggregation.StepCounters | app/src/main/java/com/example/phonecallloganalyzer/MainActivity.java:139-155 | classifying a row adds it to the count of its own code only |
| Aggregation.StepSummarises | app/src/main/java/com/example/phonecallloganalyzer/MainActivity.java:130-162 | one loop iteration over a parsing row extends a correct summary of the rows before it to one of all rows so far |
| Aggregation.Step | app/src/main/java/com/example/phonecallloganalyzer/MainActivity.java:130-162 | one row aborts the pass exactly when its type or duration text does not parse, with that text; otherwise it appends one item and leaves an entry for its number; `StepSummarises` relates it to the reference definitions |
| Aggregation.Aggregate | app/src/main/java/com/example/phonecallloganalyzer/MainActivity.java:130-162 | a completed pass has one item per row; `AggregateSummarises` shows it completes exactly when every row parses and gives its full result, and `AggregateAborts` gives the failure |
| Aggregation.AggregateSummarises | app/src/main/java/com/example/phonecallloganalyzer/MainActivity.java:111-162 | the pass completes exactly when every text parses; then the list has one item per row in row order, the map one entry per number with its call count and summed duration, the cache one resolved name per number looked up once, and the counters the count of each code |
| Aggregation.AbortsAt | app/src/main/java/com/example/phonecallloganalyzer/MainActivity.java:139-160 | at the first bad row the pass throws on that row's bad text; the counters include the row when its type parsed and its duration did not |
| Aggregation.AggregateAborts | app/src/main/java/com/example/phonecallloganalyzer/MainActivity.java:130-162 | a call log with a bad text aborts at its first bad row, with the counters of the rows before it |
| Aggregation.AggregateOutcome | app/src/main/java/com/example/phonecallloganalyzer/MainActivity.java:130-162 | both outcomes of a pass in one statement: the reference summary when every row parses, otherwise the abort at the first bad row with its text and counters |
| Aggregation.NumbersListed | app/src/main/java/com/example/phonecallloganalyzer/MainActivity.java:161 | the map is keyed by exactly the numbers that occur in the rows |
| Aggregation.AggregateNames | app/src/main/java/com/example/phonecallloganalyzer/MainActivity.java:136-161 | all rows of one number share one name, the entry of that number carries that name and number, a number without a contact is its own name, and the lookup ran once per distinct number |
| Aggregation.CountLabelCode | app/src/main/java/com/example/phonecallloganalyzer/MainActivity.java:138-157 | the items labelled "Incoming", "Outgoing" or "Missed" are exactly the rows with that code |
| Aggregation.SameLabel | app/src/main/java/com/example/phonecallloganalyzer/MainActivity.java:139-155 | a known code shares its label with no other code |
| Aggregation.LabelsPartition | app/src/main/java/com/example/phonecallloganalyzer/MainActivity.java:152-155 | the four labels split the list: their counts add up to its length |
| Aggregation.CountersPartitionRows | app/src/main/java/com/example/phonecallloganalyzer/MainActivity.java:138-157 | each counter equals its label's count in the list, and incoming + outgoing + missed + "Other" items equals the number of rows |
| Aggregation.CountsOverSnoc | app/src/main/java/com/example/phonecallloganalyzer/MainActivity.java:161 | a new row adds one call to its own number and to no other |
| Aggregation.CountsOverAll | app/src/main/java/com/example/phonecallloganalyzer/MainActivity.java:161 | over every number seen, once each, the per-number row counts add up to the number of rows |
| Aggregation.CountNumberAtMost | app/src/main/java/com/example/phonecallloganalyzer/MainActivity.java:161 | no number has more calls than there are rows |
| Aggregation.StatsCountAllRows | app/src/main/java/com/example/phonecallloganalyzer/MainActivity.java:160-161 | no row is left out of the map: the entries' call counts add up to the number of rows |
| Adapter.TypeColour | app/src/main/java/com/example/phonecallloganalyzer/CallLogAdapter.java:66-80 | a label is grey exactly when it is none of the three known labels; `TypeColourDistinguishes` gives the colour of each |
| Adapter.TypeColourDistinguishes | app/src/main/java/com/example/phonecallloganalyzer/CallLogAdapter.java:66-80 | "Incoming", "Outgoing" and "Missed" each get their own colour, and every other label, "Other" included, is grey |
| Adapter.FormatLogDuration | app/src/main/java/com/example/phonecallloganalyzer/CallLogAdapter.java:122-132 | the duration shows "-" exactly when its text is not an `int` |
| Adapter.LogDurationSeconds | app/src/main/java/com/example/phonecallloganalyzer/CallLogAdapter.java:125-126 | under a minute, zero and negatives included, the seconds are printed as they are, followed by "s" |
| Adapter.LogDurationMinutes | app/src/main/java/com/example/phonecallloganalyzer/CallLogAdapter.java:127-128 | from a minute up, the text is "m m s s" for the unique 60·m + s = seconds with 0 <= s < 60, with no hours |
| Adapter.FormatStatsDuration | app/src/main/java/com/example/phonecallloganalyzer/CallLogAdapter.java:112-120 | the total shows hours exactly when it is at least one hour; `StatsDurationHours`, `StatsDurationMinutes` and `StatsDurationNegative` give the text |
| Adapter.StatsDurationHours | app/src/main/java/com/example/phonecallloganalyzer/CallLogAdapter.java:113-116 | from an hour up, the total shows whole hours and the remaining whole minutes, and drops the seconds |
| Adapter.StatsDurationMinutes | app/src/main/java/com/example/phonecallloganalyzer/CallLogAdapter.java:117-119 | under an hour, the total shows minutes and seconds with 60·m + s = total |
| Adapter.StatsDurationNegative | app/src/main/java/com/example/phonecallloganalyzer/CallLogAdapter.java:112-119 | a negative total never shows hours; minutes and seconds are truncated toward zero and carry the sign |
| Adapter.ShowStats | app/src/main/java/com/example/phonecallloganalyzer/CallLogAdapter.java:53-57 | the call-count text holds the count text verbatim between the phone symbol and " Calls", the total text is the timer symbol followed by the formatted total and shows hours exactly from one hour up, and the two texts get different colours |
| Adapter.Bind | app/src/main/java/com/example/phonecallloganalyzer/CallLogAdapter.java:37-85 | binding fails exactly for a "STATS" row with two parts whose second is not an `int`; it keeps name and number; a "STATS" row shows stats texts exactly when it has two parts, and then shows the first part as the call count and the parsed second part as the formatted total; any other row shows its type, that type's colour and its formatted duration |
| CallLogItems.StatsData | app/src/main/java/com/example/phonecallloganalyzer/StatisticsActivity.java:70 | the field written for a contact splits on the separator into exactly the printed count and the printed total |
| Adapter.StatsDataRoundTrip | app/src/main/java/com/example/phonecallloganalyzer/CallLogAdapter.java:48-51 | the count-separator-total field splits into the printed count and total, and the total parses back to itself |
| Adapter.BindStatsData | app/src/main/java/com/example/phonecallloganalyzer/CallLogAdapter.java:43-58 | a "STATS" row built from a count and a total binds without failing and shows that count and that total |
| Adapter.LogDurationExamples | app/src/main/java/com/example/phonecallloganalyzer/CallLogAdapter.java:122-132 | "0", "45", "185" and "7800" show as "0s", "45s", "3m 5s" and "130m 0s", and "12a" as "-" |
| Adapter.StatsDurationExamples | app/src/main/java/com/example/phonecallloganalyzer/CallLogAdapter.java:112-120 | totals 7800, 45 and 0 show as "2h 10m", "0m 45s" and "0m 0s" |
| Statistics.EntriesInOrder | app/src/main/java/com/example/phonecallloganalyzer/StatisticsActivity.java:85 | the list copied from `entrySet()` follows the iteration order; for an iteration order of the map's keys it is as long as the map, has no key twice, carries each key's own stats and holds every key's entry |
| Statistics.ByTotalDesc | app/src/main/java/com/example/phonecallloganalyzer/StatisticsActivity.java:86 | an entry sorts no later than another exactly when `Integer.compare` of the second total against the first is not positive; `ByTotalDescIsOrder` makes it a total, transitive order |
| Statistics.ByTotalDescIsOrder | app/src/main/java/com/example/phonecallloganalyzer/StatisticsActivity.java:86 | the by-total comparator is total and transitive |
| Statistics.SortByTotal | app/src/main/java/com/example/phonecallloganalyzer/StatisticsActivity.java:86 | sorting by total keeps the same entries and puts larger totals first |
| Statistics.Ranked | app/src/main/java/com/example/phonecallloganalyzer/StatisticsActivity.java:85-86 | the ranked list is a permutation of the map's entries, one per key with its own stats, in non-increasing total |
| Statistics.Reverse | app/src/main/java/com/example/phonecallloganalyzer/StatisticsActivity.java:97 | `Collections.reverse` puts element i at position n-1-i |
| Statistics.Bars | app/src/main/java/com/example/phonecallloganalyzer/StatisticsActivity.java:88-97 | the i-th of the first min(n, 5) entries gets a bar at x = limit-1-i with its total, and the reversed label at that x is its name |
| Statistics.SetupBarChart | app/src/main/java/com/example/phonecallloganalyzer/StatisticsActivity.java:84-97 | there are min(#contacts, 5) bars; the i-th ranked contact's bar stands at limit-1-i, and the label at each bar's x names the contact of that bar |
| Statistics.ChartedDominate | app/src/main/java/com/example/phonecallloganalyzer/StatisticsActivity.java:86-93 | every charted contact's total is at least every uncharted contact's total |
| Statistics.BarPositions | app/src/main/java/com/example/phonecallloganalyzer/StatisticsActivity.java:90-94 | the x positions are distinct and lie in 0..limit-1, and the largest total of the map stands at the highest x |
| Statistics.ByName | app/src/main/java/com/example/phonecallloganalyzer/StatisticsActivity.java:75 | a row sorts no later than another exactly when `compareTo` of their names is not positive; `ByNameIsOrder` makes it a total, transitive order |
| Statistics.ByNameIsOrder | app/src/main/java/com/example/phonecallloganalyzer/StatisticsActivity.java:75 | comparing rows by name is total and transitive |
| Statistics.SortByName | app/src/main/java/com/example/phonecallloganalyzer/StatisticsActivity.java:75 | sorting by name keeps the same rows and puts them in ascending `compareTo` order of names |
| Statistics.StatsRow | app/src/main/java/com/example/phonecallloganalyzer/StatisticsActivity.java:69-71 | a contact's row has type "STATS" and a duration field that splits into its printed count and total; `StatsRowBinds` gives what it shows |
| Statistics.StatsRows | app/src/main/java/com/example/phonecallloganalyzer/StatisticsActivity.java:69-72 | the loop makes one row per value in the map's iteration order; for an iteration order of the map's keys there are as many rows as contacts and every contact's "STATS" row is among them |
| Statistics.SetupStatsList | app/src/main/java/com/example/phonecallloganalyzer/StatisticsActivity.java:65-75 | the list is a permutation of the rows made from the map's values, one per contact, in ascending name order |
| Statistics.StatsListRows | app/src/main/java/com/example/phonecallloganalyzer/StatisticsActivity.java:69-72 | every row of the list is some contact's row, with type "STATS" and date 0 |
| Statistics.StatsListCovers | app/src/main/java/com/example/phonecallloganalyzer/StatisticsActivity.java:69-75 | every contact's row is in the list |
| Statistics.OnCreate | app/src/main/java/com/example/phonecallloganalyzer/StatisticsActivity.java:49-61 | chart and list appear exactly for a present, non-empty map; a missing counter reads as 0; the pie appears exactly when some counter is positive |
| MainScreen.Reload | app/src/main/java/com/example/phonecallloganalyzer/MainActivity.java:107-173 | without a cursor only the counters reset; a failing pass keeps the shown list and map and leaves the counters of the rows up to the bad one; a completed pass shows one item per row, one entry per number holding that number's resolved name, its wrapped call count and its wrapped total duration, and the counts of each code |
| MainScreen.ReloadIdempotent | app/src/main/java/com/example/phonecallloganalyzer/MainActivity.java:111-172 | loading the same call log twice shows what loading it once shows, and a completed load does not depend on what was shown before |
| MainScreen.Publish | app/src/main/java/com/example/phonecallloganalyzer/MainActivity.java:166-172 | a failed pass publishes nothing: the list and the map keep what they held; `ReloadIdempotent` shows a completed pass replaces them regardless of what was shown |
| MainScreen.ShowStats | app/src/main/java/com/example/phonecallloganalyzer/MainActivity.java:176-190 | "show stats" does nothing while the map is empty, and otherwise hands over the map and all three counters |
| MainScreen.NothingToShowAtLaunch | app/src/main/java/com/example/phonecallloganalyzer/MainActivity.java:35-49 | the activity starts with an empty list, an empty map and zero counters, so "show stats" does nothing before a completed pass, nor after a reload without a cursor |
| MainScreen.CountCodePositive | app/src/main/java/com/example/phonecallloganalyzer/MainActivity.java:139-150 | a code's count is positive exactly when some row has that code, and is at most the number of rows |
| MainScreen.TallyPositive | app/src/main/java/com/example/phonecallloganalyzer/MainActivity.java:142-150 | a counter is positive exactly when some row has its code |
| MainScreen.StatisticsAfterReload | app/src/main/java/com/example/phonecallloganalyzer/StatisticsActivity.java:54-61 | after a completed load of a non-empty call log, the statistics screen opens with chart and list, and with the pie exactly when some call is incoming, outgoing or missed |
| MainScreen.LogRowsBind | app/src/main/java/com/example/phonecallloganalyzer/CallLogAdapter.java:59-84 | every item of a completed pass shows its call type in that type's colour and a formatted duration, never "-" |
| MainScreen.ItemBinds | app/src/main/java/com/example/phonecallloganalyzer/CallLogAdapter.java:59-84 | the item a parsing row becomes binds as a call, with its label's colour and a duration other than "-" |
| MainScreen.StatsRowBinds | app/src/main/java/com/example/phonecallloganalyzer/StatisticsActivity.java:69-72 | a contact's row in the statistics list binds without failing and shows that contact's name, number, call count and total |

## Left out

- Android plumbing is not modelled: the permission flow, the content-provider queries and their cursors, and view binding and animation. The rows and the contact lookup are inputs instead.
- Threading is not modelled: the single-thread executor, the main-looper handler and the data race between the worker's counter writes and the UI thread. A pass is a pure function, and publishing is the separate step `MainScreen.Publish`.
- A second load started before the first finishes is not modelled; it is a concurrency question.
- Intent extras and `Serializable` are transport only. `MainScreen.ShowStats` hands over the values themselves.
- `formatDate` is not modelled: it depends on the wall clock, `Calendar`, `SimpleDateFormat` and the locale. The date is an opaque integer.
- The source passes a `long` date into a `String` parameter of `CallLogItem`. This type mismatch is not modelled.
- Chart rendering and styling are not modelled: `styleBarChart`, `setupPieChart`, `stylePieChart`, the charting library, and the float minutes `total / 60f` with its `%.0f` formatter. A bar carries the total in whole seconds.
- `String.format` with the default locale may print non-ASCII digits; the model prints ASCII digits.
- `Integer.parseInt` also accepts non-ASCII Unicode digits; the model accepts ASCII digits only.
- `compareTo` compares UTF-16 code units. The model compares Unicode scalar values, which order differently only with characters outside the Basic Multilingual Plane.
- The numeric values of `CallLog.Calls.*_TYPE` are defined by the platform. The model uses 1, 2 and 3, and the proofs rely only on their being distinct.
- Null numbers, names and duration texts are not modelled. Every text is a string, so a null number as a `HashMap` key and `parseInt` of a null text do not arise.
- An uncaught worker exception is modelled as the end of the pass. Android would also terminate the process, and that is not modelled.
- Sorting.SortBy: stability is not stated. The insertion sort keeps equal elements in input order, but the input order is the unspecified `HashMap` order anyway.
- Adapter.Bind: the recycled views' previous texts are not modelled. A "STATS" row without two parts yields `None` ("left as they were"), and the date text is not part of the result.

=== FILE: adapter.dfy ===
/** CallLogAdapter: how one `CallLogItem` is shown. A "STATS" row splits its
    duration field on '|' into the call count and the total seconds; any
    other row shows its type in the type's colour and its duration. */
module Adapter {
  import opened Wrappers
  import opened JavaInt
  import opened JavaString
  import opened CallLogItems

  const INCOMING_COLOUR: string := "#4CAF50"
  const OUTGOING_COLOUR: string := "#2196F3"
  const MISSED_COLOUR: string := "#F44336"
  const OTHER_COLOUR: string := "#B0BEC5"
  const CALL_COUNT_COLOUR: string := "#33B5E5"
  const TOTAL_DURATION_COLOUR: string := "#FFBB33"
  const CALL_PREFIX: string := "\U{1F4DE} "
  const CALLS_SUFFIX: string := " Calls"
  const TIMER_PREFIX: string := "\U{23F1} "

  /** The switch on the type label in `onBindViewHolder`. */
  function TypeColour(typeLabel: string): (r: string)
    ensures r == OTHER_COLOUR <==> typeLabel !in {"Incoming", "Outgoing", "Missed"}
  {
    match typeLabel
    case "Incoming" => INCOMING_COLOUR
    case "Outgoing" => OUTGOING_COLOUR
    case "Missed" => MISSED_COLOUR
    case _ => OTHER_COLOUR
  }

  /** Exactly the three known labels get their own colour; every other
      label, "Other" included, is grey. */
  lemma TypeColourDistinguishes(typeLabel: string)
    ensures TypeColour(typeLabel) == INCOMING_COLOUR <==> typeLabel == "Incoming"
    ensures TypeColour(typeLabel) == OUTGOING_COLOUR <==> typeLabel == "Outgoing"
    ensures TypeColour(typeLabel) == MISSED_COLOUR <==> typeLabel == "Missed"
    ensures TypeColour(typeLabel) == OTHER_COLOUR <==> typeLabel !in {"Incoming", "Outgoing", "Missed"}
  {
  }

  // ----- Durations -----

  /** `formatLogDuration(durationStr)`: seconds below a minute as "Ns",
      otherwise whole minutes and the remaining seconds, never hours; text
      that is not an `int` shows as "-". */
  function FormatLogDuration(text: string): (r: string)
    ensures ParseInt(text).None? <==> r == "-"
  {
    match ParseInt(text)
    case None => "-"
    case Some(seconds) =>
      if seconds == 0 then "0s"
      else if seconds < 60 then Str(seconds) + "s"
      else Str(Quot(seconds, 60)) + "m " + Str(Rem(seconds, 60)) + "s"
  }

  /** Below one minute, zero and negative values included, the seconds are
      printed as they are. */
  lemma LogDurationSeconds(text: string, seconds: int)
    requires ParseInt(text) == Some(seconds) && seconds < 60
    ensures FormatLogDuration(text) == Str(seconds) + "s"
  {
  }

  /** From one minute up, the text is `m`m `s`s for the unique split
      `60 m + s` with `0 <= s < 60`. */
  lemma LogDurationMinutes(text: string, seconds: int, m: int, s: int)
    requires ParseInt(text) == Some(seconds) && seconds >= 60
    requires 0 <= s < 60 && 60 * m + s == seconds
    ensures FormatLogDuration(text) == Str(m) + "m " + Str(s) + "s"
  {
    assert Quot(seconds, 60) == m;
  }

  /** `formatStatsDuration(totalSeconds)`: hours and minutes once there is
      at least one hour (seconds dropped), otherwise minutes and seconds.
      Java's truncating `/` and `%` decide the negative case. */
  function FormatStatsDuration(total: int32): (r: string)
    ensures 'h' in r <==> total >= 3600
  {
    var hours := Quot(total, 3600);
    var minutes := Quot(Rem(total, 3600), 60);
    StrAvoids(hours, 'h');
    StrAvoids(minutes, 'h');
    StrAvoids(Rem(total, 60), 'h');
    if hours > 0 then Str(hours) + "h " + Str(minutes) + "m"
    else Str(minutes) + "m " + Str(Rem(total, 60)) + "s"
  }

  /** At an hour or more: `h`h `m`m, where `h` whole hours and `m` whole
      minutes fit into the total and less than a minute is left over. */
  lemma StatsDurationHours(total: int32, h: int, m: int)
    requires 0 <= m < 60 && h >= 1
    requires 3600 * h + 60 * m <= total < 3600 * h + 60 * m + 60
    ensures FormatStatsDuration(total) == Str(h) + "h " + Str(m) + "m"
  {
    assert Quot(total, 3600) == h;
    assert Rem(total, 3600) == total - 3600 * h;
    assert Quot(Rem(total, 3600), 60) == m;
  }

  /** Under an hour: `m`m `s`s with `60 m + s` equal to the total. */
  lemma StatsDurationMinutes(total: int32, m: int, s: int)
    requires 0 <= total < 3600
    requires 0 <= s < 60 && 60 * m + s == total
    ensures FormatStatsDuration(total) == Str(m) + "m " + Str(s) + "s"
  {
    assert Quot(total, 3600) == 0;
    assert Quot(total, 60) == m;
  }

  /** A negative total never shows hours: both parts are truncated toward
      zero and carry the minus sign. */
  lemma StatsDurationNegative(total: int32)
    requires total < 0
    ensures var a := -(total as int);
      FormatStatsDuration(total) == Str(-((a % 3600) / 60)) + "m " + Str(-(a % 60)) + "s"
  {
    var a := -(total as int);
    assert Rem(total, 3600) == -(a % 3600);
    assert Quot(Rem(total, 3600), 60) == -((a % 3600) / 60);
    assert Rem(total, 60) == -(a % 60);
  }

  // ----- Binding a row -----

  /** The two texts of a "STATS" row. */
  datatype StatsTexts = StatsTexts(callCount: string, callCountColour: string, totalDuration: string, totalDurationColour: string)

  datatype Details =
    | CallDetails(typeText: string, typeColour: string, durationText: string)
      /** `None`: the duration field did not split into exactly two parts,
          and the stats texts are left as they were. */
    | StatsDetails(texts: Option<StatsTexts>)

  datatype BoundRow = BoundRow(name: string, number: string, details: Details)

  /** The texts shown for count text `count` and total `total`. */
  function ShowStats(count: string, total: int32): (r: StatsTexts)
    ensures |r.callCount| == |CALL_PREFIX| + |count| + |CALLS_SUFFIX|
    ensures r.callCount[|CALL_PREFIX|..|CALL_PREFIX| + |count|] == count
    ensures |r.totalDuration| == |TIMER_PREFIX| + |FormatStatsDuration(total)|
    ensures r.totalDuration[..|TIMER_PREFIX|] == TIMER_PREFIX && r.totalDuration[|TIMER_PREFIX|..] == FormatStatsDuration(total)
    ensures 'h' in r.totalDuration <==> total >= 3600
    ensures r.callCountColour != r.totalDurationColour
  {
    var callCount := CALL_PREFIX + count + CALLS_SUFFIX;
    assert callCount[|CALL_PREFIX|..|CALL_PREFIX| + |count|] == count;
    StatsTexts(callCount, CALL_COUNT_COLOUR, TIMER_PREFIX + FormatStatsDuration(total), TOTAL_DURATION_COLOUR)
  }

  /** `onBindViewHolder` for one item. The second part of a "STATS" row goes
      through `Integer.parseInt`; when that throws, the result is `Err` with
      the offending text. The date text is not modelled. */
  function Bind(item: CallLogItem): (r: Result<BoundRow, string>)
    ensures r.Err? <==>
      && item.callType == STATS_TYPE
      && |Split(item.duration, STATS_SEPARATOR)| == 2
      && ParseInt(Split(item.duration, STATS_SEPARATOR)[1]).None?
    ensures r.Ok? ==> r.value.name == item.name && r.value.number == item.number
    ensures r.Ok? ==> (r.value.details.StatsDetails? <==> item.callType == STATS_TYPE)
    ensures r.Ok? && item.callType == STATS_TYPE ==>
      (r.value.details.texts.Some? <==> |Split(item.duration, STATS_SEPARATOR)| == 2)
    ensures r.Ok? && item.callType == STATS_TYPE && |Split(item.duration, STATS_SEPARATOR)| == 2 ==>
      var parts := Split(item.duration, STATS_SEPARATOR);
      r.value.details.texts == Some(ShowStats(parts[0], ParseInt(parts[1]).value))
    ensures r.Ok? && item.callType != STATS_TYPE ==>
      && r.value.details.typeText == item.callType
      && r.value.details.typeColour == TypeColour(item.callType)
      && r.value.details.durationText == FormatLogDuration(item.duration)
  {
    if item.callType == STATS_TYPE then
      var parts := Split(item.duration, STATS_SEPARATOR);
      if |parts| == 2 then
        match ParseInt(parts[1])
        case None => Err(parts[1])
        case Some(total) => Ok(BoundRow(item.name, item.number, StatsDetails(Some(ShowStats(parts[0], total)))))
      else Ok(BoundRow(item.name, item.number, StatsDetails(None)))
    else
      Ok(BoundRow(item.name, item.number,
                  CallDetails(item.callType, TypeColour(item.callType), FormatLogDuration(item.duration))))
  }

  /** The "count|total" codec: the field written for a contact always splits
      into its two numbers, and the total parses back to itself. */
  lemma StatsDataRoundTrip(count: int32, total: int32)
    ensures Split(StatsData(count, total), STATS_SEPARATOR) == [Str(count), Str(total)]
    ensures ParseInt(Str(count)) == Some(count) && ParseInt(Str(total)) == Some(total)
  {
    StrAvoids(count, STATS_SEPARATOR);
    StrAvoids(total, STATS_SEPARATOR);
    SplitPair(Str(count), Str(total), STATS_SEPARATOR);
    ParseStr(count);
    ParseStr(total);
  }

  /** A "STATS" row built from a count and a total binds without failing and
      shows that count and that total. */
  lemma BindStatsData(name: string, number: string, date: int, count: int32, total: int32)
    ensures Bind(CallLogItem(name, number, STATS_TYPE, date, StatsData(count, total)))
      == Ok(BoundRow(name, number, StatsDetails(Some(ShowStats(Str(count), total)))))
  {
    StatsDataRoundTrip(count, total);
  }

  /** Worked examples of the call-log duration: never any hours. */
  lemma LogDurationExamples()
    ensures FormatLogDuration("0") == "0s"
    ensures FormatLogDuration("45") == "45s"
    ensures FormatLogDuration("185") == "3m 5s"
    ensures FormatLogDuration("7800") == "130m 0s"
    ensures FormatLogDuration("12a") == "-"
  {
    LogDurationSmall();
    assert !AllDigits("12a") by { assert !IsDigit("12a"[2]); }
    LogDuration185();
    LogDuration7800();
  }

  lemma LogDurationSmall()
    ensures FormatLogDuration("0") == "0s"
    ensures FormatLogDuration("45") == "45s"
  {
    ParseStr(0);
    ParseStr(45);
    assert Str(45) == "45";
    LogDurationSeconds("45", 45);
  }

  lemma LogDuration185()
    ensures FormatLogDuration("185") == "3m 5s"
  {
    assert NatStr(18) == "18";
    assert Str(185) == "185";
    ParseStr(185);
    LogDurationMinutes("185", 185, 3, 5);
  }

  lemma LogDuration7800()
    ensures FormatLogDuration("7800") == "130m 0s"
  {
    assert NatStr(78) == "78";
    assert NatStr(780) == "780";
    assert Str(7800) == "7800";
    ParseStr(7800);
    LogDurationMinutes("7800", 7800, 130, 0);
    assert NatStr(13) == "13";
    assert Str(130) == "130";
  }

  /** Worked examples of the per-contact total: seconds are dropped once
      there is an hour. */
  lemma StatsDurationExamples()
    ensures FormatStatsDuration(7800) == "2h 10m"
    ensures FormatStatsDuration(45) == "0m 45s"
    ensures FormatStatsDuration(0) == "0m 0s"
  {
    StatsDuration7800();
    StatsDurationSmall();
  }

  lemma StatsDuration7800()
    ensures FormatStatsDuration(7800) == "2h 10m"
  {
    assert Str(2) == "2";
    assert NatStr(1) == "1";
    assert Str(10) == "10";
    StatsDurationHours(7800, 2, 10);
  }

  lemma StatsDurationSmall()
    ensures FormatStatsDuration(45) == "0m 45s"
    ensures FormatStatsDuration(0) == "0m 0s"
  {
    assert Str(0) == "0";
    assert NatStr(4) == "4";
    assert Str(45) == "45";
    StatsDurationMinutes(45, 0, 45);
    StatsDurationMinutes(0, 0, 0);
  }
}

=== FILE: aggregation.dfy ===
/** MainActivity's aggregation pass: one forward sweep over the call-log rows
    that builds the list of `CallLogItem`s, the map from phone number to
    `ContactStats` and the incoming/outgoing/missed counters, looking names up
    through a cache that lives for the pass. A type or duration text that
    `Integer.parseInt` rejects aborts the whole pass. */
module Aggregation {
  import opened Wrappers
  import opened JavaInt
  import opened HashMaps
  import opened Contacts
  import opened CallLogItems

  /** `CallLog.Calls.INCOMING_TYPE`, `OUTGOING_TYPE` and `MISSED_TYPE`. */
  const INCOMING_TYPE: int := 1
  const OUTGOING_TYPE: int := 2
  const MISSED_TYPE: int := 3

  /** One cursor row: number, type code as text, date, duration as text. */
  datatype Row = Row(number: string, typeText: string, date: int, durationText: string)

  /** The contacts lookup: the display name of the first matching contact,
      or `None` when the lookup finds no row. */
  type Resolver = string -> Option<string>

  // ----- Classification -----

  /** The label the type switch gives a parsed code. */
  function Label(code: int): (r: string)
    ensures r == "Other" <==> code !in {INCOMING_TYPE, OUTGOING_TYPE, MISSED_TYPE}
  {
    if code == OUTGOING_TYPE then "Outgoing"
    else if code == INCOMING_TYPE then "Incoming"
    else if code == MISSED_TYPE then "Missed"
    else "Other"
  }

  datatype Counters = Counters(incoming: int32, outgoing: int32, missed: int32)

  const NoCalls := Counters(0, 0, 0)

  /** The `++` the type switch performs: exactly the counter the label names,
      none for "Other". */
  function Tick(c: Counters, code: int): (r: Counters)
    ensures r.incoming == Wrap(c.incoming + (if Label(code) == "Incoming" then 1 else 0))
    ensures r.outgoing == Wrap(c.outgoing + (if Label(code) == "Outgoing" then 1 else 0))
    ensures r.missed == Wrap(c.missed + (if Label(code) == "Missed" then 1 else 0))
  {
    if code == OUTGOING_TYPE then c.(outgoing := Wrap(c.outgoing + 1))
    else if code == INCOMING_TYPE then c.(incoming := Wrap(c.incoming + 1))
    else if code == MISSED_TYPE then c.(missed := Wrap(c.missed + 1))
    else c
  }

  /** Each known code has its own label, and every other code is "Other". */
  lemma LabelClassifies(code: int)
    ensures Label(code) == "Incoming" <==> code == INCOMING_TYPE
    ensures Label(code) == "Outgoing" <==> code == OUTGOING_TYPE
    ensures Label(code) == "Missed" <==> code == MISSED_TYPE
    ensures Label(code) == "Other" <==> code !in {INCOMING_TYPE, OUTGOING_TYPE, MISSED_TYPE}
  {
  }

  // ----- Contact names -----

  /** The name `getContactName` settles on: the contact's display name, or
      the number itself when no contact matches. */
  function ResolvedName(resolve: Resolver, number: string): string {
    resolve(number).GetOr(number)
  }

  /** Every cached name is what the lookup gives for its number. */
  ghost predicate CacheSound(cache: map<string, string>, resolve: Resolver) {
    forall k :: k in cache ==> cache[k] == ResolvedName(resolve, k)
  }

  datatype Lookup = Lookup(name: string, cache: map<string, string>, consulted: bool)

  /** `getContactName(context, number, cache)`: a hit returns the cached
      name without consulting the resolver; a miss consults it once and
      stores whatever name it settles on, the fallback included. */
  function GetContactName(number: string, cache: map<string, string>, resolve: Resolver): (r: Lookup)
    ensures r.consulted <==> number !in cache
    ensures r.cache.Keys == cache.Keys + {number}
    ensures r.cache[number] == r.name
    ensures forall k :: k in cache ==> r.cache[k] == cache[k]
    ensures number in cache ==> r.name == cache[number]
    ensures number !in cache ==> r.name == ResolvedName(resolve, number)
    ensures resolve(number).None? && number !in cache ==> r.name == number
    ensures CacheSound(cache, resolve) ==> CacheSound(r.cache, resolve) && r.name == ResolvedName(resolve, number)
  {
    if number in cache then Lookup(cache[number], cache, false)
    else
      var name := match resolve(number) case Some(n) => n case None => number;
      Lookup(name, cache[number := name], true)
  }

  // ----- The pass -----

  /** What the worker holds part-way through the pass. `consulted` lists the
      numbers the resolver was asked about, in order. */
  datatype Pass = Pass(
    logs: seq<CallLogItem>,
    stats: map<string, ContactStats>,
    cache: map<string, string>,
    consulted: seq<string>,
    counters: Counters)

  /** The state at the start of every pass: counters at zero, a fresh list,
      map and name cache. */
  const Start := Pass([], map[], map[], [], NoCalls)

  /** The `NumberFormatException` that ends a pass: the text that did not
      parse, and the counter fields as the worker left them. */
  datatype Abort = Abort(text: string, counters: Counters)

  /** The loop body for one row: look up the name, classify the type, append
      the item, then fold the parsed duration into the number's stats,
      creating the entry from this row's name on first sight. */
  function Step(p: Pass, row: Row, resolve: Resolver): (r: Result<Pass, Abort>)
    ensures r.Err? <==> !Parses(row)
    ensures r.Err? ==> r.error.text == BadText(row)
    ensures r.Ok? ==> |r.value.logs| == |p.logs| + 1 && row.number in r.value.stats
  {
    var lookup := GetContactName(row.number, p.cache, resolve);
    var consulted := if lookup.consulted then p.consulted + [row.number] else p.consulted;
    match ParseInt(row.typeText)
    case None => Err(Abort(row.typeText, p.counters))
    case Some(code) =>
      var counters := Tick(p.counters, code);
      var logs := p.logs + [CallLogItem(lookup.name, row.number, Label(code), row.date, row.durationText)];
      match ParseInt(row.durationText)
      case None => Err(Abort(row.durationText, counters))
      case Some(duration) =>
        var entry := if row.number in p.stats then p.stats[row.number] else Fresh(lookup.name, row.number);
        Ok(Pass(logs, p.stats[row.number := AddCall(entry, duration)], lookup.cache, consulted, counters))
  }

  /** The whole pass over the rows in cursor order. */
  function Aggregate(rows: seq<Row>, resolve: Resolver): (r: Result<Pass, Abort>)
    ensures r.Ok? ==> |r.value.logs| == |rows|
  {
    if |rows| == 0 then Ok(Start)
    else
      match Aggregate(rows[..|rows| - 1], resolve)
      case Err(e) => Err(e)
      case Ok(p) => Step(p, rows[|rows| - 1], resolve)
  }

  // ----- Reference definitions, row by row -----

  predicate Parses(row: Row) {
    ParseInt(row.typeText).Some? && ParseInt(row.durationText).Some?
  }

  predicate AllParse(rows: seq<Row>) {
    forall i :: 0 <= i < |rows| ==> Parses(rows[i])
  }

  /** The item a row becomes. */
  function ItemFor(row: Row, resolve: Resolver): CallLogItem
    requires ParseInt(row.typeText).Some?
  {
    CallLogItem(ResolvedName(resolve, row.number), row.number,
                Label(ParseInt(row.typeText).value), row.date, row.durationText)
  }

  /** The distinct numbers among the rows. */
  function Numbers(rows: seq<Row>): set<string> {
    if |rows| == 0 then {} else Numbers(rows[..|rows| - 1]) + {rows[|rows| - 1].number}
  }

  /** How many rows carry `number`. */
  function CountNumber(rows: seq<Row>, number: string): nat {
    if |rows| == 0 then 0
    else CountNumber(rows[..|rows| - 1], number) + (if rows[|rows| - 1].number == number then 1 else 0)
  }

  /** The exact sum of the durations of the rows that carry `number`. */
  function SumDurations(rows: seq<Row>, number: string): int
    requires AllParse(rows)
  {
    if |rows| == 0 then 0
    else
      var last := rows[|rows| - 1];
      SumDurations(rows[..|rows| - 1], number)
        + (if last.number == number then ParseInt(last.durationText).value as int else 0)
  }

  /** How many rows have a type text that parses to `code`. */
  function CountCode(rows: seq<Row>, code: int): nat {
    if |rows| == 0 then 0
    else CountCode(rows[..|rows| - 1], code) + (if ParseInt(rows[|rows| - 1].typeText) == Some(code) then 1 else 0)
  }

  /** The three counters as Java `int`s after counting `rows`. */
  function Tally(rows: seq<Row>): Counters {
    Counters(Wrap(CountCode(rows, INCOMING_TYPE)), Wrap(CountCode(rows, OUTGOING_TYPE)), Wrap(CountCode(rows, MISSED_TYPE)))
  }

  /** The list holds one item per row, in row order. */
  ghost predicate LogsMatch(logs: seq<CallLogItem>, rows: seq<Row>, resolve: Resolver)
    requires AllParse(rows)
  {
    && |logs| == |rows|
    && (forall i :: 0 <= i < |rows| ==> logs[i] == ItemFor(rows[i], resolve))
  }

  /** One entry per distinct number, counting that number's rows and summing
      their durations as Java `int`s do. */
  ghost predicate StatsMatch(stats: map<string, ContactStats>, rows: seq<Row>, resolve: Resolver)
    requires AllParse(rows)
  {
    && stats.Keys == Numbers(rows)
    && (forall n :: n in stats ==>
          stats[n] == ContactStats(ResolvedName(resolve, n), n,
                                   Wrap(CountNumber(rows, n)), Wrap(SumDurations(rows, n))))
  }

  /** The cache knows every number seen, each with its resolved name, and the
      resolver was asked about each of those numbers exactly once. */
  ghost predicate CacheMatch(cache: map<string, string>, consulted: seq<string>, rows: seq<Row>, resolve: Resolver) {
    && cache.Keys == Numbers(rows)
    && CacheSound(cache, resolve)
    && Distinct(consulted)
    && (forall i :: 0 <= i < |consulted| ==> consulted[i] in Numbers(rows))
    && (forall n :: n in Numbers(rows) ==> n in consulted)
  }

  /** `p` is what a completed pass over `rows` must produce. */
  ghost predicate Summarises(p: Pass, rows: seq<Row>, resolve: Resolver)
    requires AllParse(rows)
  {
    && LogsMatch(p.logs, rows, resolve)
    && StatsMatch(p.stats, rows, resolve)
    && CacheMatch(p.cache, p.consulted, rows, resolve)
    && p.counters == Tally(rows)
  }

  /** Index of the first row that does not parse. */
  function FirstBad(rows: seq<Row>): (i: nat)
    requires !AllParse(rows)
    ensures i < |rows| && !Parses(rows[i]) && AllParse(rows[..i])
  {
    if !Parses(rows[0]) then 0
    else
      assert !AllParse(rows[1..]) by {
        var j :| 0 <= j < |rows| && !Parses(rows[j]);
        assert rows[1..][j - 1] == rows[j];
      }
      var k := FirstBad(rows[1..]);
      PrefixParses(rows, k);
      1 + k
  }

  lemma PrefixParses(rows: seq<Row>, k: nat)
    requires 0 < |rows| && k < |rows| - 1
    requires Parses(rows[0]) && AllParse(rows[1..][..k])
    ensures AllParse(rows[..k + 1])
  {
    assert forall i :: 0 <= i < k ==> rows[..k + 1][i + 1] == rows[1..][..k][i];
  }

  /** The text whose parse aborts the pass at row `row`. */
  function BadText(row: Row): string {
    if ParseInt(row.typeText).None? then row.typeText else row.durationText
  }

  // ----- Per-row facts -----

  lemma NumbersOfSnoc(rows: seq<Row>, row: Row)
    ensures (rows + [row])[..|rows|] == rows
    ensures Numbers(rows + [row]) == Numbers(rows) + {row.number}
  {
    assert (rows + [row])[..|rows|] == rows;
  }

  /** A number no row carries has no calls and no duration. */
  lemma {:induction false} AbsentNumber(rows: seq<Row>, n: string)
    requires AllParse(rows)
    requires n !in Numbers(rows)
    ensures CountNumber(rows, n) == 0 && SumDurations(rows, n) == 0
  {
    if |rows| > 0 {
      AbsentNumber(rows[..|rows| - 1], n);
    }
  }

  lemma AllParseSnoc(rows: seq<Row>, row: Row)
    ensures AllParse(rows + [row]) <==> AllParse(rows) && Parses(row)
  {
    var all := rows + [row];
    assert all[|rows|] == row;
    assert forall i :: 0 <= i < |rows| ==> all[i] == rows[i];
  }

  lemma StepLogs(rows: seq<Row>, row: Row, logs: seq<CallLogItem>, resolve: Resolver)
    requires AllParse(rows) && Parses(row)
    requires LogsMatch(logs, rows, resolve)
    ensures AllParse(rows + [row])
    ensures LogsMatch(logs + [ItemFor(row, resolve)], rows + [row], resolve)
  {
    AllParseSnoc(rows, row);
    var all := rows + [row];
    assert forall i :: 0 <= i < |rows| ==> all[i] == rows[i];
  }

  lemma SnocSums(rows: seq<Row>, row: Row, k: string)
    requires AllParse(rows + [row])
    ensures AllParse(rows)
    ensures CountNumber(rows + [row], k) == CountNumber(rows, k) + (if row.number == k then 1 else 0)
    ensures SumDurations(rows + [row], k)
      == SumDurations(rows, k) + (if row.number == k then ParseInt(row.durationText).value as int else 0)
  {
    AllParseSnoc(rows, row);
    NumbersOfSnoc(rows, row);
  }

  /** The entry of the row's own number after the row is folded in. */
  lemma StepEntrySame(rows: seq<Row>, row: Row, stats: map<string, ContactStats>, resolve: Resolver)
    requires AllParse(rows + [row])
    requires AllParse(rows) && Parses(row) && StatsMatch(stats, rows, resolve)
    ensures var n := row.number;
      var entry := if n in stats then stats[n] else Fresh(ResolvedName(resolve, n), n);
      AddCall(entry, ParseInt(row.durationText).value)
        == ContactStats(ResolvedName(resolve, n), n,
                        Wrap(CountNumber(rows + [row], n)), Wrap(SumDurations(rows + [row], n)))
  {
    var n := row.number;
    var d := ParseInt(row.durationText).value;
    var count, sum := CountNumber(rows, n), SumDurations(rows, n);
    SnocSums(rows, row, n);
    if n !in stats {
      AbsentNumber(rows, n);
    }
    var entry := if n in stats then stats[n] else Fresh(ResolvedName(resolve, n), n);
    assert entry == ContactStats(ResolvedName(resolve, n), n, Wrap(count), Wrap(sum));
    AddCallWrapped(ResolvedName(resolve, n), n, count, sum, d);
  }

  /** The entry for `k` after the row is folded in. */
  lemma StepEntry(rows: seq<Row>, row: Row, stats: map<string, ContactStats>, resolve: Resolver, k: string)
    requires AllParse(rows + [row])
    requires AllParse(rows) && Parses(row) && StatsMatch(stats, rows, resolve)
    requires k == row.number || k in stats
    ensures var n := row.number;
      var entry := if n in stats then stats[n] else Fresh(ResolvedName(resolve, n), n);
      var stats' := stats[n := AddCall(entry, ParseInt(row.durationText).value)];
      stats'[k] == ContactStats(ResolvedName(resolve, k), k,
                                Wrap(CountNumber(rows + [row], k)), Wrap(SumDurations(rows + [row], k)))
  {
    if k == row.number {
      StepEntrySame(rows, row, stats, resolve);
    } else {
      SnocSums(rows, row, k);
    }
  }

  lemma StepStats(rows: seq<Row>, row: Row, stats: map<string, ContactStats>, resolve: Resolver)
    requires AllParse(rows) && Parses(row)
    requires StatsMatch(stats, rows, resolve)
    ensures AllParse(rows + [row])
    ensures var n := row.number;
      var entry := if n in stats then stats[n] else Fresh(ResolvedName(resolve, n), n);
      StatsMatch(stats[n := AddCall(entry, ParseInt(row.durationText).value)], rows + [row], resolve)
  {
    AllParseSnoc(rows, row);
    NumbersOfSnoc(rows, row);
    var n := row.number;
    var entry := if n in stats then stats[n] else Fresh(ResolvedName(resolve, n), n);
    var stats' := stats[n := AddCall(entry, ParseInt(row.durationText).value)];
    forall k | k in stats'
      ensures stats'[k] == ContactStats(ResolvedName(resolve, k), k,
                                        Wrap(CountNumber(rows + [row], k)), Wrap(SumDurations(rows + [row], k)))
    {
      StepEntry(rows, row, stats, resolve, k);
    }
  }

  lemma StepCache(rows: seq<Row>, row: Row, cache: map<string, string>, consulted: seq<string>, resolve: Resolver)
    requires CacheMatch(cache, consulted, rows, resolve)
    ensures var lookup := GetContactName(row.number, cache, resolve);
      && lookup.name == ResolvedName(resolve, row.number)
      && CacheMatch(lookup.cache, if lookup.consulted then consulted + [row.number] else consulted, rows + [row], resolve)
  {
    NumbersOfSnoc(rows, row);
  }

  lemma CountCodeSnoc(rows: seq<Row>, row: Row, c: int)
    ensures CountCode(rows + [row], c) == CountCode(rows, c) + (if ParseInt(row.typeText) == Some(c) then 1 else 0)
  {
    NumbersOfSnoc(rows, row);
  }

  /** Counting one more row whose type parses to `code`. */
  lemma TallySnoc(rows: seq<Row>, row: Row, code: int)
    requires ParseInt(row.typeText) == Some(code)
    ensures var t := Tally(rows);
      Tally(rows + [row]) == Counters(
        Wrap(t.incoming + (if code == INCOMING_TYPE then 1 else 0)),
        Wrap(t.outgoing + (if code == OUTGOING_TYPE then 1 else 0)),
        Wrap(t.missed + (if code == MISSED_TYPE then 1 else 0)))
  {
    WrappedCountSnoc(rows, row, INCOMING_TYPE);
    WrappedCountSnoc(rows, row, OUTGOING_TYPE);
    WrappedCountSnoc(rows, row, MISSED_TYPE);
  }

  lemma WrappedCountSnoc(rows: seq<Row>, row: Row, c: int)
    ensures Wrap(CountCode(rows + [row], c))
      == Wrap(Wrap(CountCode(rows, c)) + (if ParseInt(row.typeText) == Some(c) then 1 else 0))
  {
    CountCodeSnoc(rows, row, c);
    var n := CountCode(rows, c);
    if ParseInt(row.typeText) == Some(c) {
      WrapAdd(n, 1);
      assert CountCode(rows + [row], c) == n + 1;
    } else {
      assert CountCode(rows + [row], c) == n;
      assert Wrap(Wrap(n) + 0) == Wrap(n);
    }
  }

  lemma StepCounters(rows: seq<Row>, row: Row, code: int)
    requires ParseInt(row.typeText) == Some(code)
    ensures Tally(rows + [row]) == Tick(Tally(rows), code)
  {
    TallySnoc(rows, row, code);
    LabelClassifies(code);
  }

  /** One row, folded into a pass that summarises the rows before it,
      yields a pass that summarises them all. */
  lemma StepSummarises(rows: seq<Row>, row: Row, p: Pass, resolve: Resolver)
    requires AllParse(rows) && Parses(row)
    requires Summarises(p, rows, resolve)
    ensures AllParse(rows + [row])
    ensures Step(p, row, resolve).Ok?
    ensures Summarises(Step(p, row, resolve).value, rows + [row], resolve)
  {
    StepLogs(rows, row, p.logs, resolve);
    StepStats(rows, row, p.stats, resolve);
    StepCache(rows, row, p.cache, p.consulted, resolve);
    StepCounters(rows, row, ParseInt(row.typeText).value);
  }

  /** The pass succeeds exactly when every type and duration text parses,
      and then its result is the row-by-row reference. */
  lemma {:induction false} AggregateSummarises(rows: seq<Row>, resolve: Resolver)
    ensures Aggregate(rows, resolve).Ok? <==> AllParse(rows)
    ensures Aggregate(rows, resolve).Ok? ==> Summarises(Aggregate(rows, resolve).value, rows, resolve)
  {
    if |rows| > 0 {
      var pre, last := rows[..|rows| - 1], rows[|rows| - 1];
      assert rows == pre + [last];
      AggregateSummarises(pre, resolve);
      AllParseSnoc(pre, last);
      if AllParse(rows) {
        StepSummarises(pre, last, Aggregate(pre, resolve).value, resolve);
      }
    }
  }

  /** Both outcomes of a pass: the reference summary when every row parses,
      otherwise the abort at the first bad row. */
  lemma AggregateOutcome(rows: seq<Row>, resolve: Resolver)
    ensures AllParse(rows) ==> Aggregate(rows, resolve).Ok? && Summarises(Aggregate(rows, resolve).value, rows, resolve)
    ensures !AllParse(rows) ==>
      Aggregate(rows, resolve) == Err(Abort(BadText(rows[FirstBad(rows)]), Tally(rows[..FirstBad(rows) + 1])))
  {
    AggregateSummarises(rows, resolve);
    if !AllParse(rows) {
      AggregateAborts(rows, resolve);
    }
  }

  // ----- A pass that aborts -----

  /** A row whose type text does not parse adds nothing to the counters. */
  lemma TallyUnparsedType(rows: seq<Row>, row: Row)
    requires ParseInt(row.typeText).None?
    ensures Tally(rows + [row]) == Tally(rows)
  {
    NumbersOfSnoc(rows, row);
  }

  /** A pass whose row `i` is the first not to parse fails with that row's
      offending text, and with the counters as they stood after classifying
      rows `0..i`: a bad type text is not counted, a bad duration text is
      counted before the duration is parsed. */
  lemma {:induction false} AbortsAt(rows: seq<Row>, resolve: Resolver, i: nat)
    requires i < |rows| && AllParse(rows[..i]) && !Parses(rows[i])
    ensures Aggregate(rows, resolve) == Err(Abort(BadText(rows[i]), Tally(rows[..i + 1])))
  {
    var pre, last := rows[..|rows| - 1], rows[|rows| - 1];
    if i == |rows| - 1 {
      assert pre == rows[..i];
      assert rows[..i + 1] == pre + [last];
      AggregateSummarises(pre, resolve);
      match ParseInt(last.typeText)
      case None => TallyUnparsedType(pre, last);
      case Some(code) => StepCounters(pre, last, code);
    } else {
      assert pre[..i] == rows[..i];
      assert pre[..i + 1] == rows[..i + 1];
      AbortsAt(pre, resolve, i);
    }
  }

  /** When some text does not parse, the pass reports the first such row. */
  lemma AggregateAborts(rows: seq<Row>, resolve: Resolver)
    requires !AllParse(rows)
    ensures var i := FirstBad(rows);
      Aggregate(rows, resolve) == Err(Abort(BadText(rows[i]), Tally(rows[..i + 1])))
  {
    var i := FirstBad(rows);
    AbortsAt(rows, resolve, i);
  }

  // ----- Names in a completed pass -----

  /** `Numbers` collects exactly the numbers the rows carry. */
  lemma {:induction false} NumbersListed(rows: seq<Row>)
    ensures forall i :: 0 <= i < |rows| ==> rows[i].number in Numbers(rows)
    ensures forall n :: n in Numbers(rows) ==> exists i :: 0 <= i < |rows| && rows[i].number == n
  {
    if |rows| > 0 {
      var pre := rows[..|rows| - 1];
      NumbersListed(pre);
      assert forall i :: 0 <= i < |pre| ==> pre[i] == rows[i];
    }
  }

  /** Every row with the same number carries the same name, the stats entry
      of a number carries that name and number, a number without a contact
      is its own name, and the resolver was asked about each distinct number
      exactly once. */
  lemma AggregateNames(rows: seq<Row>, resolve: Resolver)
    requires AllParse(rows)
    ensures var r := Aggregate(rows, resolve);
      && r.Ok?
      && |r.value.logs| == |rows|
      && (forall i, j :: 0 <= i < |rows| && 0 <= j < |rows| && rows[i].number == rows[j].number ==>
            r.value.logs[i].name == r.value.logs[j].name)
      && (forall i :: 0 <= i < |rows| ==>
            && rows[i].number in r.value.stats
            && r.value.stats[rows[i].number].name == r.value.logs[i].name
            && r.value.stats[rows[i].number].number == rows[i].number)
      && (forall i :: 0 <= i < |rows| && resolve(rows[i].number).None? ==> r.value.logs[i].name == rows[i].number)
      && Distinct(r.value.consulted)
      && (forall n :: n in r.value.consulted <==> n in r.value.stats)
  {
    AggregateSummarises(rows, resolve);
    NumbersListed(rows);
  }

  // ----- Classification in a completed pass -----

  /** How many items carry the type label `typeLabel`. */
  function CountLabel(logs: seq<CallLogItem>, typeLabel: string): nat {
    if |logs| == 0 then 0
    else CountLabel(logs[..|logs| - 1], typeLabel) + (if logs[|logs| - 1].callType == typeLabel then 1 else 0)
  }

  /** The items labelled after a known code are the rows with that code. */
  lemma {:induction false} CountLabelCode(rows: seq<Row>, logs: seq<CallLogItem>, resolve: Resolver, code: int)
    requires AllParse(rows) && LogsMatch(logs, rows, resolve)
    requires code == INCOMING_TYPE || code == OUTGOING_TYPE || code == MISSED_TYPE
    ensures CountLabel(logs, Label(code)) == CountCode(rows, code)
  {
    if |rows| > 0 {
      var n := |rows| - 1;
      LogsMatchPrefix(rows, logs, resolve);
      CountLabelCode(rows[..n], logs[..n], resolve, code);
      var parsed := ParseInt(rows[n].typeText).value;
      assert logs[n].callType == Label(parsed);
      SameLabel(parsed, code);
    }
  }

  /** Dropping the last row and the last item keeps the list matching. */
  lemma LogsMatchPrefix(rows: seq<Row>, logs: seq<CallLogItem>, resolve: Resolver)
    requires AllParse(rows) && LogsMatch(logs, rows, resolve) && |rows| > 0
    ensures AllParse(rows[..|rows| - 1]) && LogsMatch(logs[..|logs| - 1], rows[..|rows| - 1], resolve)
  {
    var n := |rows| - 1;
    assert forall i :: 0 <= i < n ==> rows[..n][i] == rows[i] && logs[..n][i] == logs[i];
  }

  /** A known code shares its label with no other code. */
  lemma SameLabel(parsed: int, code: int)
    requires code == INCOMING_TYPE || code == OUTGOING_TYPE || code == MISSED_TYPE
    ensures Label(parsed) == Label(code) <==> parsed == code
  {
    LabelClassifies(parsed);
    LabelClassifies(code);
  }

  /** When every item has one of the four labels, the four label counts
      partition the list. */
  lemma {:induction false} LabelsPartition(logs: seq<CallLogItem>)
    requires forall i :: 0 <= i < |logs| ==> logs[i].callType in {"Incoming", "Outgoing", "Missed", "Other"}
    ensures CountLabel(logs, "Incoming") + CountLabel(logs, "Outgoing")
          + CountLabel(logs, "Missed") + CountLabel(logs, "Other") == |logs|
  {
    if |logs| > 0 {
      var pre := logs[..|logs| - 1];
      assert forall i :: 0 <= i < |pre| ==> pre[i] == logs[i];
      LabelsPartition(pre);
    }
  }

  /** Each counter counts the items of its label, and every row is counted
      once: while fewer than 2^31 rows are read, the three counters and the
      "Other" items add up to the number of rows. */
  lemma CountersPartitionRows(rows: seq<Row>, resolve: Resolver)
    requires AllParse(rows)
    ensures var r := Aggregate(rows, resolve);
      && r.Ok?
      && r.value.counters.incoming == Wrap(CountLabel(r.value.logs, "Incoming"))
      && r.value.counters.outgoing == Wrap(CountLabel(r.value.logs, "Outgoing"))
      && r.value.counters.missed == Wrap(CountLabel(r.value.logs, "Missed"))
      && (|rows| <= MAX_INT ==>
            r.value.counters.incoming + r.value.counters.outgoing + r.value.counters.missed
              + CountLabel(r.value.logs, "Other") == |rows|)
  {
    AggregateSummarises(rows, resolve);
    var p := Aggregate(rows, resolve).value;
    CountLabelCode(rows, p.logs, resolve, INCOMING_TYPE);
    CountLabelCode(rows, p.logs, resolve, OUTGOING_TYPE);
    CountLabelCode(rows, p.logs, resolve, MISSED_TYPE);
    forall i | 0 <= i < |p.logs| ensures p.logs[i].callType in {"Incoming", "Outgoing", "Missed", "Other"} {
      assert p.logs[i] == ItemFor(rows[i], resolve);
    }
    LabelsPartition(p.logs);
  }

  // ----- Counts over the whole map -----

  /** The number of rows carrying the numbers `order` lists. */
  function CountsOver(rows: seq<Row>, order: seq<string>): nat {
    if |order| == 0 then 0
    else CountsOver(rows, order[..|order| - 1]) + CountNumber(rows, order[|order| - 1])
  }

  lemma {:induction false} CountsOverSnoc(rows: seq<Row>, row: Row, order: seq<string>)
    ensures CountsOver(rows + [row], order) == CountsOver(rows, order) + Occurrences(order, row.number)
  {
    if |order| > 0 {
      CountsOverSnoc(rows, row, order[..|order| - 1]);
      NumbersOfSnoc(rows, row);
    }
  }

  /** Summed over a duplicate-free list of every number seen, the per-number
      counts add up to the number of rows. */
  lemma {:induction false} CountsOverAll(rows: seq<Row>, order: seq<string>)
    requires Distinct(order)
    requires forall n :: n in Numbers(rows) ==> n in order
    ensures CountsOver(rows, order) == |rows|
  {
    if |rows| == 0 {
      CountsOverEmpty(order);
    } else {
      var pre, last := rows[..|rows| - 1], rows[|rows| - 1];
      assert rows == pre + [last];
      NumbersOfSnoc(pre, last);
      CountsOverAll(pre, order);
      CountsOverSnoc(pre, last, order);
      OccursOnce(order, last.number);
    }
  }

  lemma {:induction false} CountsOverEmpty(order: seq<string>)
    ensures CountsOver([], order) == 0
  {
    if |order| > 0 {
      CountsOverEmpty(order[..|order| - 1]);
    }
  }

  /** No number is carried by more rows than there are. */
  lemma {:induction false} CountNumberAtMost(rows: seq<Row>, n: string)
    ensures CountNumber(rows, n) <= |rows|
  {
    if |rows| > 0 {
      CountNumberAtMost(rows[..|rows| - 1], n);
    }
  }

  /** The call counts of the entries `order` lists, summed as integers. */
  function StatsCounts(stats: map<string, ContactStats>, order: seq<string>): int
    requires forall i :: 0 <= i < |order| ==> order[i] in stats
  {
    if |order| == 0 then 0
    else StatsCounts(stats, order[..|order| - 1]) + stats[order[|order| - 1]].count as int
  }

  lemma {:induction false} StatsCountsAgree(stats: map<string, ContactStats>, rows: seq<Row>, order: seq<string>)
    requires forall i :: 0 <= i < |order| ==> order[i] in stats && stats[order[i]].count == CountNumber(rows, order[i])
    ensures StatsCounts(stats, order) == CountsOver(rows, order)
  {
    if |order| > 0 {
      var pre := order[..|order| - 1];
      assert forall i :: 0 <= i < |pre| ==> pre[i] == order[i];
      StatsCountsAgree(stats, rows, pre);
    }
  }

  /** No row is left out of the map: over any enumeration of its keys, the
      entries' call counts add up to the number of rows, while fewer than
      2^31 rows are read. */
  lemma StatsCountAllRows(rows: seq<Row>, resolve: Resolver, order: seq<string>)
    requires Aggregate(rows, resolve).Ok?
    requires Enumerates(order, Aggregate(rows, resolve).value.stats.Keys)
    requires |rows| <= MAX_INT
    ensures StatsCounts(Aggregate(rows, resolve).value.stats, order) == |rows|
  {
    AggregateSummarises(rows, resolve);
    var stats := Aggregate(rows, resolve).value.stats;
    forall i | 0 <= i < |order| ensures stats[order[i]].count == CountNumber(rows, order[i]) {
      CountNumberAtMost(rows, order[i]);
    }
    StatsCountsAgree(stats, rows, order);
    CountsOverAll(rows, order);
  }
}

=== FILE: call_log_item.dfy ===
/** `CallLogItem`: one row of either list. A log row carries the call's type
    label and its duration text; a "STATS" row carries a contact summary,
    with the duration field holding `count + "|" + total` instead. The item
    is a value: its getters are the destructors, and building one neither
    checks nor changes anything. */
module CallLogItems {
  import opened JavaInt
  import opened JavaString

  /** The date is the call's timestamp (`long` milliseconds), kept opaque. */
  datatype CallLogItem = CallLogItem(name: string, number: string, callType: string, date: int, duration: string)

  const STATS_TYPE: string := "STATS"
  const STATS_SEPARATOR: char := '|'

  /** The duration field of a "STATS" row: `count + "|" + total`. */
  function StatsData(count: int32, total: int32): (r: string)
    ensures Split(r, STATS_SEPARATOR) == [Str(count), Str(total)]
  {
    StrAvoids(count, STATS_SEPARATOR);
    StrAvoids(total, STATS_SEPARATOR);
    SplitPair(Str(count), Str(total), STATS_SEPARATOR);
    Str(count) + [STATS_SEPARATOR] + Str(total)
  }
}

=== FILE: contacts.dfy ===
/** `ContactStats`: the per-number accumulator of one aggregation pass. Name
    and number are fixed at construction; `addCall` bumps the call count and
    adds to the total duration, both Java `int` fields that wrap. */
module Contacts {
  import opened JavaInt

  datatype ContactStats = ContactStats(name: string, number: string, count: int32, totalDuration: int32)

  /** `new ContactStats(name, number)`. */
  function Fresh(name: string, number: string): (s: ContactStats)
    ensures s.name == name && s.number == number
    ensures s.count == 0 && s.totalDuration == 0
  {
    ContactStats(name, number, 0, 0)
  }

  /** `addCall(duration)`. Identity is untouched; below the `int` ceiling the
      count grows by exactly one and the total by exactly `duration`, and in
      every case both agree with the exact values modulo 2^32. */
  function AddCall(s: ContactStats, duration: int32): (r: ContactStats)
    ensures r.name == s.name && r.number == s.number
    ensures (r.count - (s.count + 1)) % TWO_32 == 0
    ensures (r.totalDuration - (s.totalDuration + duration)) % TWO_32 == 0
    ensures s.count < MAX_INT ==> r.count == s.count + 1
    ensures MIN_INT <= s.totalDuration + duration <= MAX_INT ==> r.totalDuration == s.totalDuration + duration
  {
    ContactStats(s.name, s.number, Wrap(s.count + 1), Wrap(s.totalDuration + duration))
  }

  /** Folding one call into counters that hold wrapped exact values keeps
      them the wrapped exact values. */
  lemma AddCallWrapped(name: string, number: string, count: int, total: int, duration: int32)
    ensures AddCall(ContactStats(name, number, Wrap(count), Wrap(total)), duration)
      == ContactStats(name, number, Wrap(count + 1), Wrap(total + duration))
  {
    WrapAdd(count, 1);
    WrapAdd(total, duration);
  }

  function Sum(ds: seq<int32>): int {
    if |ds| == 0 then 0 else Sum(ds[..|ds| - 1]) + ds[|ds| - 1]
  }

  /** `addCall(d1) ... addCall(dk)` applied in order. */
  function AddCalls(s: ContactStats, ds: seq<int32>): ContactStats {
    if |ds| == 0 then s else AddCall(AddCalls(s, ds[..|ds| - 1]), ds[|ds| - 1])
  }

  /** After k calls on a fresh entry the count is k and the total is the sum
      of the durations, each as a Java `int` holds them. */
  lemma {:induction false} AddCallsCounts(name: string, number: string, ds: seq<int32>)
    ensures AddCalls(Fresh(name, number), ds) ==
      ContactStats(name, number, Wrap(|ds|), Wrap(Sum(ds)))
  {
    if |ds| > 0 {
      var pre := ds[..|ds| - 1];
      AddCallsCounts(name, number, pre);
      AddCallWrapped(name, number, |pre|, Sum(pre), ds[|ds| - 1]);
    }
  }

  /** With no overflow along the way, the counters hold the exact values. */
  lemma AddCallsExact(name: string, number: string, ds: seq<int32>)
    requires |ds| <= MAX_INT && MIN_INT <= Sum(ds) <= MAX_INT
    ensures AddCalls(Fresh(name, number), ds).count == |ds|
    ensures AddCalls(Fresh(name, number), ds).totalDuration == Sum(ds)
  {
    AddCallsCounts(name, number, ds);
  }
}

=== FILE: hash_map.dfy ===
/** A `HashMap`'s iteration order is unspecified; the model takes it as a
    sequence that lists every key exactly once. */
module HashMaps {

  predicate Distinct<K(==)>(s: seq<K>) {
    forall i, j :: 0 <= i < j < |s| ==> s[i] != s[j]
  }

  /** `order` lists exactly the keys in `keys`, each once. */
  predicate Enumerates<K(==)>(order: seq<K>, keys: set<K>) {
    && Distinct(order)
    && (forall i :: 0 <= i < |order| ==> order[i] in keys)
    && (forall k :: k in keys ==> k in order)
  }

  /** How often `x` occurs in `s`. */
  function Occurrences<K(==)>(s: seq<K>, x: K): nat {
    if |s| == 0 then 0 else Occurrences(s[..|s| - 1], x) + (if s[|s| - 1] == x then 1 else 0)
  }

  /** A key listed by a duplicate-free sequence is listed exactly once. */
  lemma {:induction false} OccursOnce<K>(s: seq<K>, x: K)
    requires Distinct(s)
    ensures Occurrences(s, x) == (if x in s then 1 else 0)
  {
    if |s| > 0 {
      var pre := s[..|s| - 1];
      assert Distinct(pre);
      OccursOnce(pre, x);
      assert s == pre + [s[|s| - 1]];
      if s[|s| - 1] == x {
        assert x !in pre;
      }
    }
  }

  /** An enumeration is as long as the set it lists. */
  lemma {:induction false} EnumerationSize<K>(order: seq<K>, keys: set<K>)
    requires Enumerates(order, keys)
    ensures |order| == |keys|
  {
    if |order| > 0 {
      var pre, last := order[..|order| - 1], order[|order| - 1];
      assert last in keys;
      assert forall i :: 0 <= i < |pre| ==> pre[i] == order[i];
      assert last !in pre;
      assert Enumerates(pre, keys - {last}) by {
        forall k | k in keys - {last} ensures k in pre {
          var i :| 0 <= i < |order| && order[i] == k;
          assert i < |order| - 1;
          assert pre[i] == k;
        }
      }
      EnumerationSize(pre, keys - {last});
    }
  }
}

=== FILE: java_int.dfy ===
/** Java's 32-bit `int` as the app uses it: two's-complement wrap-around of
    `++` and `+=`, truncating `/` and `%`, `Integer.parseInt` and the decimal
    text that string concatenation and `%d` produce. Digits are ASCII. */
module JavaInt {
  import opened Wrappers

  const MIN_INT: int := -0x8000_0000
  const MAX_INT: int := 0x7fff_ffff
  const TWO_32: int := 0x1_0000_0000

  type int32 = x: int | -0x8000_0000 <= x <= 0x7fff_ffff

  /** The `int` that Java arithmetic leaves behind for the exact value `x`. */
  function Wrap(x: int): (r: int32)
    ensures (r - x) % TWO_32 == 0
    ensures MIN_INT <= x <= MAX_INT ==> r == x
  {
    (x - MIN_INT) % TWO_32 + MIN_INT
  }

  /** `Integer.compare(x, y)`: negative, zero or positive as `x` is below,
      equal to or above `y`. */
  function Compare(x: int, y: int): int {
    if x < y then -1 else if x == y then 0 else 1
  }

  /** Two exact values congruent modulo 2^32 wrap to the same `int`. */
  lemma WrapCongruent(x: int, y: int)
    requires (x - y) % TWO_32 == 0
    ensures Wrap(x) == Wrap(y)
  {
    var rx, ry := Wrap(x), Wrap(y);
    var d := rx - ry;
    assert (d - (x - y)) % TWO_32 == 0 by {
      ModSub(rx - x, ry - y);
    }
    ModSub(d - (x - y), -(x - y));
    assert d % TWO_32 == 0;
    assert -TWO_32 < d < TWO_32;
  }

  /** A difference of two multiples of 2^32 is a multiple of 2^32. */
  lemma ModSub(a: int, b: int)
    requires a % TWO_32 == 0 && b % TWO_32 == 0
    ensures (a - b) % TWO_32 == 0
  {
    var qa, qb := a / TWO_32, b / TWO_32;
    assert a == TWO_32 * qa;
    assert b == TWO_32 * qb;
    assert a - b == TWO_32 * (qa - qb);
  }

  /** Adding to an already wrapped value wraps like adding to the exact one:
      a running Java sum equals the wrap of the exact sum. */
  lemma WrapAdd(a: int, b: int)
    ensures Wrap(Wrap(a) + b) == Wrap(a + b)
  {
    WrapCongruent(Wrap(a) + b, a + b);
  }

  /** Java's `a / b` for a positive divisor: rounds toward zero. */
  function Quot(a: int, b: int): (q: int)
    requires b > 0
    ensures a >= 0 ==> 0 <= a - b * q < b
    ensures a < 0 ==> -b < a - b * q <= 0
  {
    if a >= 0 then a / b else -((-a) / b)
  }

  /** Java's `a % b` for a positive divisor: the sign follows `a`. */
  function Rem(a: int, b: int): (r: int)
    requires b > 0
    ensures a == b * Quot(a, b) + r
    ensures a >= 0 ==> 0 <= r < b
    ensures a < 0 ==> -b < r <= 0
  {
    a - b * Quot(a, b)
  }

  predicate IsDigit(c: char) {
    '0' <= c <= '9'
  }

  predicate AllDigits(s: string) {
    forall i :: 0 <= i < |s| ==> IsDigit(s[i])
  }

  function DigitValue(c: char): nat
    requires IsDigit(c)
  {
    c as int - '0' as int
  }

  function DigitChar(d: nat): (c: char)
    requires d < 10
    ensures IsDigit(c) && DigitValue(c) == d
  {
    (d + '0' as int) as char
  }

  /** The value of a run of decimal digits, most significant first. */
  function DigitsValue(s: string): nat
    requires AllDigits(s)
  {
    if |s| == 0 then 0
    else 10 * DigitsValue(s[..|s| - 1]) + DigitValue(s[|s| - 1])
  }

  /** An optional sign followed by at least one decimal digit. */
  predicate WellFormed(s: string) {
    if |s| > 0 && (s[0] == '-' || s[0] == '+') then |s| > 1 && AllDigits(s[1..])
    else |s| > 0 && AllDigits(s)
  }

  /** The value a well-formed text denotes, before any range check. */
  function SignedValue(s: string): int
    requires WellFormed(s)
  {
    if s[0] == '-' then -(DigitsValue(s[1..]) as int)
    else if s[0] == '+' then DigitsValue(s[1..])
    else DigitsValue(s)
  }

  /** `Integer.parseInt(s)`: an optional sign followed by at least one digit,
      whose value fits in an `int`; anything else throws, here `None`. */
  function ParseInt(s: string): (r: Option<int32>)
    ensures r.Some? ==> |s| > 0
    ensures r.Some? && s[0] != '-' && s[0] != '+' ==> AllDigits(s) && r.value == DigitsValue(s)
    ensures r.Some? && s[0] == '-' ==> AllDigits(s[1..]) && r.value == -(DigitsValue(s[1..]) as int)
    ensures r.Some? && s[0] == '+' ==> AllDigits(s[1..]) && r.value == DigitsValue(s[1..])
    ensures r.Some? ==> WellFormed(s) && r.value == SignedValue(s)
    ensures WellFormed(s) ==> (r.Some? <==> MIN_INT <= SignedValue(s) <= MAX_INT)
  {
    if |s| == 0 then None
    else
      var negative := s[0] == '-';
      var digits := if s[0] == '-' || s[0] == '+' then s[1..] else s;
      if |digits| == 0 || !AllDigits(digits) then None
      else
        var v: int := if negative then -(DigitsValue(digits) as int) else DigitsValue(digits);
        if MIN_INT <= v <= MAX_INT then Some(v) else None
  }

  /** The decimal digits of a natural number, no leading zeros. */
  function NatStr(n: nat): (s: string)
    ensures |s| > 0 && AllDigits(s)
    ensures s[0] == '0' <==> n == 0
    ensures n == 0 ==> s == "0"
  {
    if n < 10 then [DigitChar(n)] else NatStr(n / 10) + [DigitChar(n % 10)]
  }

  /** `Integer.toString(n)`, which is also what `n + ""` and `%d` print. */
  function Str(n: int): (s: string)
    ensures |s| > 0
    ensures forall i :: 0 < i < |s| ==> IsDigit(s[i])
    ensures IsDigit(s[0]) <==> n >= 0
    ensures s[0] == '-' <==> n < 0
    ensures s[0] == '0' ==> s == "0"
    ensures n < 0 ==> |s| > 1 && s[1] != '0'
  {
    if n < 0 then "-" + NatStr(-n) else NatStr(n)
  }

  lemma {:induction false} NatStrValue(n: nat)
    ensures DigitsValue(NatStr(n)) == n
  {
    if n >= 10 {
      var s := NatStr(n);
      assert s[..|s| - 1] == NatStr(n / 10);
      NatStrValue(n / 10);
    }
  }

  /** Printing an `int` and parsing it back gives the same `int`. */
  lemma ParseStr(n: int32)
    ensures ParseInt(Str(n)) == Some(n)
  {
    if n < 0 {
      assert Str(n)[1..] == NatStr(-(n as int));
      NatStrValue(-(n as int));
    } else {
      NatStrValue(n);
    }
  }

  /** The printed form of a number never contains `c` unless `c` is a digit
      or the minus sign. */
  lemma StrAvoids(n: int, c: char)
    requires !IsDigit(c) && c != '-'
    ensures c !in Str(n)
  {
  }
}

=== FILE: java_string.dfy ===
/** The two `String` operations the app relies on: `split` around a single
    literal delimiter (the regular expression `"\\|"`) and the natural order
    of `compareTo`. */
module JavaString {

  /** Index of the first occurrence of `d` in `s`. */
  function IndexOf(s: string, d: char): (i: nat)
    requires d in s
    ensures i < |s| && s[i] == d && d !in s[..i]
  {
    if s[0] == d then 0 else 1 + IndexOf(s[1..], d)
  }

  /** Glues `parts` back together with `d` between neighbours. */
  function Join(parts: seq<string>, d: char): string
    requires |parts| > 0
  {
    if |parts| == 1 then parts[0] else parts[0] + [d] + Join(parts[1..], d)
  }

  /** Every field of `s` between occurrences of `d`, empty ones included:
      `k` delimiters give `k + 1` fields. */
  function Fields(s: string, d: char): (r: seq<string>)
    ensures |r| > 0
    ensures forall i :: 0 <= i < |r| ==> d !in r[i]
    ensures Join(r, d) == s
    decreases |s|
  {
    if d !in s then [s]
    else
      var i := IndexOf(s, d);
      var rest := Fields(s[i + 1..], d);
      assert s == s[..i] + [d] + s[i + 1..];
      [s[..i]] + rest
  }

  /** Drops the empty strings at the end of `parts`. */
  function TrimTrailingEmpty(parts: seq<string>): (r: seq<string>)
    ensures r <= parts
    ensures |r| > 0 ==> r[|r| - 1] != ""
    ensures forall i :: |r| <= i < |parts| ==> parts[i] == ""
  {
    if |parts| > 0 && parts[|parts| - 1] == "" then TrimTrailingEmpty(parts[..|parts| - 1])
    else parts
  }

  /** `s.split(d)` with limit zero: when `d` does not occur the result is
      `s` alone (even for the empty string); otherwise the fields, without
      the trailing empty ones. A leading empty field is kept. */
  function Split(s: string, d: char): (r: seq<string>)
    ensures forall i :: 0 <= i < |r| ==> d !in r[i]
    ensures d !in s ==> r == [s]
    ensures d in s ==> r <= Fields(s, d) && (|r| == 0 || r[|r| - 1] != "")
    ensures d in s ==> forall i :: |r| <= i < |Fields(s, d)| ==> Fields(s, d)[i] == ""
  {
    if d !in s then [s] else TrimTrailingEmpty(Fields(s, d))
  }

  /** Splitting `a d b` gives back `a` and `b`, provided neither contains the
      delimiter and `b` is not empty (an empty `b` would be trimmed). */
  lemma SplitPair(a: string, b: string, d: char)
    requires d !in a && d !in b && b != ""
    ensures Split(a + [d] + b, d) == [a, b]
  {
    var s := a + [d] + b;
    assert s[|a|] == d;
    assert s[..|a|] == a;
    assert IndexOf(s, d) == |a|;
    assert s[|a| + 1..] == b;
  }

  /** `a.compareTo(b)`: the difference of the first differing characters
      within the shorter length, or else the difference of the lengths. */
  function CompareTo(a: string, b: string): int {
    CompareFrom(a, b, 0)
  }

  /** The loop of `compareTo` from index `i` on. */
  function CompareFrom(a: string, b: string, i: nat): int
    requires i <= |a| && i <= |b|
    decreases |a| - i
  {
    if i == |a| || i == |b| then |a| - |b|
    else if a[i] != b[i] then a[i] as int - b[i] as int
    else CompareFrom(a, b, i + 1)
  }

  /** Dropping a common first character shifts the loop by one index. */
  lemma {:induction false} CompareFromTail(a: string, b: string, i: nat)
    requires 0 < i <= |a| && i <= |b| && a[0] == b[0]
    ensures CompareFrom(a, b, i) == CompareFrom(a[1..], b[1..], i - 1)
    decreases |a| - i
  {
    if i < |a| && i < |b| && a[i] == b[i] {
      CompareFromTail(a, b, i + 1);
    }
  }

  /** `a.compareTo(b) <= 0`, by first characters: the empty string comes
      first, then the smaller first character, then the rest decides. */
  predicate NotAfter(a: string, b: string)
    ensures NotAfter(a, b) <==> CompareTo(a, b) <= 0
  {
    if |a| == 0 then true
    else if |b| == 0 then false
    else if a[0] != b[0] then a[0] < b[0]
    else
      CompareFromTail(a, b, 1);
      NotAfter(a[1..], b[1..])
  }

  lemma {:induction false} NotAfterTotal(a: string, b: string)
    ensures NotAfter(a, b) || NotAfter(b, a)
  {
    if |a| > 0 && |b| > 0 && a[0] == b[0] {
      NotAfterTotal(a[1..], b[1..]);
    }
  }

  lemma {:induction false} NotAfterTransitive(a: string, b: string, c: string)
    requires NotAfter(a, b) && NotAfter(b, c)
    ensures NotAfter(a, c)
  {
    if |a| > 0 && a[0] == b[0] && b[0] == c[0] {
      NotAfterTransitive(a[1..], b[1..], c[1..]);
    }
  }

  lemma {:induction false} NotAfterAntisymmetric(a: string, b: string)
    requires NotAfter(a, b) && NotAfter(b, a)
    ensures a == b
  {
    if |a| > 0 {
      NotAfterAntisymmetric(a[1..], b[1..]);
      assert a == [a[0]] + a[1..];
      assert b == [b[0]] + b[1..];
    }
  }
}

=== FILE: main_screen.dfy ===
/** MainActivity's fields between passes, and the hand-off to the statistics
    screen. A reload resets the counter fields, runs the pass on the worker
    and, only when the pass completes, publishes its list and map; the
    "show stats" button hands the map and the counters over, but only once
    the map holds something. */
module MainScreen {
  import opened Wrappers
  import opened JavaInt
  import opened HashMaps
  import opened Contacts
  import opened CallLogItems
  import opened Aggregation
  import Statistics
  import Adapter

  /** The published list, the published map and the three counter fields. */
  datatype Screen = Screen(list: seq<CallLogItem>, stats: map<string, ContactStats>, counters: Counters)

  /** The fields as the activity is constructed. */
  const Launch := Screen([], map[], NoCalls)

  /** `loadCallLogsInBackground`. `cursor` is the call-log query: `None` when
      the provider returns no cursor, which ends the worker after the counter
      reset. A pass that throws leaves the list and map as they were and the
      counter fields as the worker left them. */
  function Reload(s: Screen, cursor: Option<seq<Row>>, resolve: Resolver): (r: Screen)
    ensures cursor.None? ==> r == Screen(s.list, s.stats, NoCalls)
    ensures cursor.Some? && !AllParse(cursor.value) ==>
      && r.list == s.list && r.stats == s.stats
      && r.counters == Tally(cursor.value[..FirstBad(cursor.value) + 1])
    ensures cursor.Some? && AllParse(cursor.value) ==>
      && |r.list| == |cursor.value|
      && (forall i :: 0 <= i < |cursor.value| ==> r.list[i] == ItemFor(cursor.value[i], resolve))
      && r.stats.Keys == Numbers(cursor.value)
      && StatsMatch(r.stats, cursor.value, resolve)
      && r.counters == Tally(cursor.value)
  {
    match cursor
    case None => Screen(s.list, s.stats, NoCalls)
    case Some(rows) =>
      AggregateOutcome(rows, resolve);
      Publish(s, Aggregate(rows, resolve))
  }

  /** The handler's `post`: a completed pass replaces the list and the map;
      the counter fields hold what the worker wrote either way. */
  function Publish(s: Screen, outcome: Result<Pass, Abort>): (r: Screen)
    ensures outcome.Err? ==> r.list == s.list && r.stats == s.stats
  {
    match outcome
    case Ok(p) => Screen(p.logs, p.stats, p.counters)
    case Err(e) => Screen(s.list, s.stats, e.counters)
  }

  /** Loading the same call log twice shows the same as loading it once,
      and a completed pass does not depend on what was shown before. */
  lemma ReloadIdempotent(s: Screen, s': Screen, cursor: Option<seq<Row>>, resolve: Resolver)
    ensures Reload(Reload(s, cursor, resolve), cursor, resolve) == Reload(s, cursor, resolve)
    ensures cursor.Some? && AllParse(cursor.value) ==> Reload(s, cursor, resolve) == Reload(s', cursor, resolve)
  {
    if cursor.Some? {
      AggregateSummarises(cursor.value, resolve);
    }
  }

  /** `showStats`: nothing happens while the map is empty; otherwise the
      map and the three counters go to the statistics screen. */
  function ShowStats(s: Screen): (r: Option<Statistics.Extras>)
    ensures r.None? <==> |s.stats| == 0
    ensures r.Some? ==> r.value.statsMap == Some(s.stats)
    ensures r.Some? ==>
      && r.value.incoming == Some(s.counters.incoming)
      && r.value.outgoing == Some(s.counters.outgoing)
      && r.value.missed == Some(s.counters.missed)
  {
    if |s.stats| == 0 then None
    else Some(Statistics.Extras(Some(s.stats), Some(s.counters.incoming), Some(s.counters.outgoing), Some(s.counters.missed)))
  }

  /** Before the first completed pass, and after a reload without a cursor,
      "show stats" does nothing. */
  lemma NothingToShowAtLaunch(resolve: Resolver)
    ensures ShowStats(Launch).None?
    ensures ShowStats(Reload(Launch, None, resolve)).None?
  {
  }

  // ----- From the call log to both screens -----

  /** How many rows have a type text that parses to a known code. */
  lemma {:induction false} CountCodePositive(rows: seq<Row>, code: int)
    ensures CountCode(rows, code) > 0 <==> exists i :: 0 <= i < |rows| && ParseInt(rows[i].typeText) == Some(code)
    ensures CountCode(rows, code) <= |rows|
  {
    if |rows| > 0 {
      var pre := rows[..|rows| - 1];
      CountCodePositive(pre, code);
      assert forall i :: 0 <= i < |pre| ==> pre[i] == rows[i];
    }
  }

  /** A counter of the tally is positive exactly when some row has its code,
      while fewer than 2^31 rows are read. */
  lemma TallyPositive(rows: seq<Row>)
    requires |rows| <= MAX_INT
    ensures Tally(rows).incoming > 0 <==> exists i :: 0 <= i < |rows| && ParseInt(rows[i].typeText) == Some(INCOMING_TYPE)
    ensures Tally(rows).outgoing > 0 <==> exists i :: 0 <= i < |rows| && ParseInt(rows[i].typeText) == Some(OUTGOING_TYPE)
    ensures Tally(rows).missed > 0 <==> exists i :: 0 <= i < |rows| && ParseInt(rows[i].typeText) == Some(MISSED_TYPE)
  {
    CountCodePositive(rows, INCOMING_TYPE);
    CountCodePositive(rows, OUTGOING_TYPE);
    CountCodePositive(rows, MISSED_TYPE);
  }

  /** After a completed pass over a non-empty call log, "show stats" opens
      the statistics screen with a bar chart and a list; the pie chart is
      drawn exactly when some row is incoming, outgoing or missed. */
  lemma StatisticsAfterReload(s: Screen, rows: seq<Row>, resolve: Resolver, order: seq<string>)
    requires AllParse(rows) && 0 < |rows| <= MAX_INT
    requires Enumerates(order, Reload(s, Some(rows), resolve).stats.Keys)
    ensures var extras := ShowStats(Reload(s, Some(rows), resolve));
      && extras.Some?
      && var screen := Statistics.OnCreate(extras.value, order);
      && screen.bar.Some? && screen.list.Some?
      && (screen.pie.Some? <==>
            exists i :: 0 <= i < |rows| && ParseInt(rows[i].typeText).value in {INCOMING_TYPE, OUTGOING_TYPE, MISSED_TYPE})
  {
    var r := Reload(s, Some(rows), resolve);
    NumbersListed(rows);
    assert rows[0].number in r.stats;
    TallyPositive(rows);
    var extras := ShowStats(r).value;
    var screen := Statistics.OnCreate(extras, order);
    if screen.pie.Some? {
      assert Tally(rows).incoming > 0 || Tally(rows).outgoing > 0 || Tally(rows).missed > 0;
    }
  }

  /** Every item of a completed pass shows its type label in that label's
      colour and its duration formatted, never "-". */
  lemma LogRowsBind(s: Screen, rows: seq<Row>, resolve: Resolver)
    requires AllParse(rows)
    ensures var r := Reload(s, Some(rows), resolve);
      forall i :: 0 <= i < |r.list| ==>
        var item := r.list[i];
        var typeLabel := Label(ParseInt(rows[i].typeText).value);
        && Adapter.Bind(item) == Ok(Adapter.BoundRow(item.name, item.number,
             Adapter.CallDetails(typeLabel, Adapter.TypeColour(typeLabel), Adapter.FormatLogDuration(rows[i].durationText))))
        && Adapter.FormatLogDuration(rows[i].durationText) != "-"
  {
    var r := Reload(s, Some(rows), resolve);
    forall i | 0 <= i < |r.list|
      ensures var typeLabel := Label(ParseInt(rows[i].typeText).value);
        && Adapter.Bind(r.list[i]) == Ok(Adapter.BoundRow(r.list[i].name, r.list[i].number,
             Adapter.CallDetails(typeLabel, Adapter.TypeColour(typeLabel), Adapter.FormatLogDuration(rows[i].durationText))))
        && Adapter.FormatLogDuration(rows[i].durationText) != "-"
    {
      ItemBinds(rows[i], resolve);
    }
  }

  /** The item a parsing row becomes binds as a call, never as "STATS". */
  lemma ItemBinds(row: Row, resolve: Resolver)
    requires Parses(row)
    ensures var item := ItemFor(row, resolve);
      var typeLabel := Label(ParseInt(row.typeText).value);
      && Adapter.Bind(item) == Ok(Adapter.BoundRow(item.name, item.number,
           Adapter.CallDetails(typeLabel, Adapter.TypeColour(typeLabel), Adapter.FormatLogDuration(row.durationText))))
      && Adapter.FormatLogDuration(row.durationText) != "-"
  {
    LabelClassifies(ParseInt(row.typeText).value);
  }

  /** A contact's row in the statistics list binds without failing and
      shows that contact's call count and total: the "count|total" field
      survives the round trip. */
  lemma StatsRowBinds(s: ContactStats)
    ensures Adapter.Bind(Statistics.StatsRow(s)) == StatsBinding(s)
  {
    Adapter.BindStatsData(s.name, s.number, 0, s.count, s.totalDuration);
  }

  /** What the adapter shows for a contact's "STATS" row. */
  function StatsBinding(s: ContactStats): Result<Adapter.BoundRow, string> {
    Ok(Adapter.BoundRow(s.name, s.number, Adapter.StatsDetails(Some(Adapter.ShowStats(Str(s.count), s.totalDuration)))))
  }
}

=== FILE: sorting.dfy ===
/** `List.sort(comparator)`, modelled as an insertion sort. Here `le(a, b)` holds when the
    comparator does not put `a` after `b`, i.e. `compare(a, b) <= 0`. */
module Sorting {

  ghost predicate Total<T(!new)>(le: (T, T) -> bool) {
    forall a, b :: le(a, b) || le(b, a)
  }

  ghost predicate Transitive<T(!new)>(le: (T, T) -> bool) {
    forall a, b, c :: le(a, b) && le(b, c) ==> le(a, c)
  }

  /** Every element is in order with every later one. */
  ghost predicate SortedBy<T>(le: (T, T) -> bool, s: seq<T>) {
    forall i, j :: 0 <= i < j < |s| ==> le(s[i], s[j])
  }

  /** Puts `x` in front of the first element it may precede, so `x` stays
      ahead of the elements it ties with. */
  function Insert<T(!new)>(x: T, s: seq<T>, le: (T, T) -> bool): (r: seq<T>)
    requires Total(le) && Transitive(le)
    requires SortedBy(le, s)
    ensures SortedBy(le, r)
    ensures multiset(r) == multiset{x} + multiset(s)
  {
    if |s| == 0 || le(x, s[0]) then
      [x] + s
    else
      var rest := Insert(x, s[1..], le);
      assert multiset(s) == multiset{s[0]} + multiset(s[1..]) by {
        assert s == [s[0]] + s[1..];
      }
      assert forall k :: 0 <= k < |s[1..]| ==> le(s[0], s[1..][k]) by {
        assert forall k :: 0 <= k < |s[1..]| ==> s[1..][k] == s[k + 1];
      }
      LowerBound(s[0], x, s[1..], rest, le);
      [s[0]] + rest
  }

  /** A lower bound of `x` and of every element of `tail` bounds every
      element of a permutation of `x` and `tail`. */
  lemma LowerBound<T>(y: T, x: T, tail: seq<T>, r: seq<T>, le: (T, T) -> bool)
    requires multiset(r) == multiset{x} + multiset(tail)
    requires le(y, x) && forall k :: 0 <= k < |tail| ==> le(y, tail[k])
    ensures forall k :: 0 <= k < |r| ==> le(y, r[k])
  {
    forall k | 0 <= k < |r| ensures le(y, r[k]) {
      assert r[k] in multiset(r);
      assert r[k] == x || r[k] in multiset(tail);
    }
  }

  /** Insertion sort from the back: each element goes in front of its equals
      from later positions. */
  function SortBy<T(!new)>(s: seq<T>, le: (T, T) -> bool): (r: seq<T>)
    requires Total(le) && Transitive(le)
    ensures SortedBy(le, r)
    ensures multiset(r) == multiset(s)
  {
    if |s| == 0 then []
    else
      assert s == [s[0]] + s[1..];
      Insert(s[0], SortBy(s[1..], le), le)
  }
}

=== FILE: statistics.dfy ===
/** StatisticsActivity: from the stats map and the three counters it builds
    a bar chart of the five contacts with the longest total call time, a
    list of "STATS" rows sorted by name, and a pie chart of call types.
    The map's iteration order is the parameter `order`. */
module Statistics {
  import opened Wrappers
  import opened JavaInt
  import opened JavaString
  import opened HashMaps
  import opened Sorting
  import opened Contacts
  import opened CallLogItems

  /** At most this many bars. */
  const BAR_LIMIT: nat := 5

  function Min(a: nat, b: nat): nat {
    if a <= b then a else b
  }

  // ----- Ranking for the bar chart -----

  /** A `Map.Entry<String, ContactStats>`. */
  datatype Entry = Entry(key: string, stats: ContactStats)

  /** `new ArrayList<>(statsMap.entrySet())`. */
  function EntriesInOrder(m: map<string, ContactStats>, order: seq<string>): (es: seq<Entry>)
    requires forall i :: 0 <= i < |order| ==> order[i] in m
    ensures |es| == |order|
    ensures forall i :: 0 <= i < |order| ==> es[i] == Entry(order[i], m[order[i]])
    ensures Enumerates(order, m.Keys) ==>
      && |es| == |m|
      && (forall i, j :: 0 <= i < j < |es| ==> es[i].key != es[j].key)
      && (forall i :: 0 <= i < |es| ==> es[i].key in m && es[i].stats == m[es[i].key])
      && (forall k :: k in m ==> Entry(k, m[k]) in es)
  {
    var es := seq(|order|, i requires 0 <= i < |order| => Entry(order[i], m[order[i]]));
    EntriesCover(m, order, es);
    es
  }

  /** An enumeration of the map's keys turns into one entry per key. */
  lemma EntriesCover(m: map<string, ContactStats>, order: seq<string>, es: seq<Entry>)
    requires forall i :: 0 <= i < |order| ==> order[i] in m
    requires |es| == |order| && forall i :: 0 <= i < |order| ==> es[i] == Entry(order[i], m[order[i]])
    ensures Enumerates(order, m.Keys) ==>
      && |es| == |m|
      && (forall i, j :: 0 <= i < j < |es| ==> es[i].key != es[j].key)
      && (forall i :: 0 <= i < |es| ==> es[i].key in m && es[i].stats == m[es[i].key])
      && (forall k :: k in m ==> Entry(k, m[k]) in es)
  {
    if Enumerates(order, m.Keys) {
      EnumerationSize(order, m.Keys);
      forall k | k in m ensures Entry(k, m[k]) in es {
        var i :| 0 <= i < |order| && order[i] == k;
        assert es[i] == Entry(k, m[k]);
      }
    }
  }

  /** The bar chart's comparator `Integer.compare(o2.total, o1.total)`:
      larger totals first. */
  function ByTotalDesc(): (le: (Entry, Entry) -> bool)
    ensures forall a, b :: le(a, b) <==> Compare(b.stats.totalDuration, a.stats.totalDuration) <= 0
  {
    (a: Entry, b: Entry) => a.stats.totalDuration >= b.stats.totalDuration
  }

  lemma ByTotalDescIsOrder()
    ensures Total(ByTotalDesc()) && Transitive(ByTotalDesc())
  {
  }

  /** `sortedList.sort(...)`: the same entries, larger totals first. */
  function SortByTotal(es: seq<Entry>): (r: seq<Entry>)
    ensures multiset(r) == multiset(es)
    ensures forall i, j :: 0 <= i < j < |r| ==> r[i].stats.totalDuration >= r[j].stats.totalDuration
  {
    ByTotalDescIsOrder();
    SortBy(es, ByTotalDesc())
  }

  /** `sortedList`: every entry of the map, in non-increasing total. */
  function Ranked(m: map<string, ContactStats>, order: seq<string>): (r: seq<Entry>)
    requires Enumerates(order, m.Keys)
    ensures |r| == |m|
    ensures multiset(r) == multiset(EntriesInOrder(m, order))
    ensures forall i, j :: 0 <= i < j < |r| ==> r[i].stats.totalDuration >= r[j].stats.totalDuration
    ensures forall i :: 0 <= i < |r| ==> r[i].key in m && r[i].stats == m[r[i].key]
    ensures forall k :: k in m ==> exists i :: 0 <= i < |r| && r[i].key == k
  {
    EnumerationSize(order, m.Keys);
    var es := EntriesInOrder(m, order);
    var r := SortByTotal(es);
    assert |r| == |multiset(r)| == |multiset(es)| == |es|;
    forall i | 0 <= i < |r| ensures r[i].key in m && r[i].stats == m[r[i].key] {
      assert r[i] in multiset(r);
      assert r[i] in es;
    }
    forall k | k in m ensures exists i :: 0 <= i < |r| && r[i].key == k {
      var j :| 0 <= j < |order| && order[j] == k;
      assert es[j] in multiset(es);
      assert es[j] in r;
    }
    r
  }

  function Reverse<T>(s: seq<T>): (r: seq<T>)
    ensures |r| == |s|
    ensures forall i :: 0 <= i < |s| ==> r[i] == s[|s| - 1 - i]
  {
    if |s| == 0 then [] else Reverse(s[1..]) + [s[0]]
  }

  /** A bar: its x position and the contact's total (the chart shows it in
      minutes). */
  datatype BarEntry = BarEntry(x: int, seconds: int32)

  datatype BarChart = BarChart(entries: seq<BarEntry>, labels: seq<string>)

  /** The loop of `setupBarChart` over the first `limit` ranked entries,
      then `Collections.reverse(labels)`. */
  function Bars(ranked: seq<Entry>): (c: BarChart)
    ensures |c.entries| == Min(|ranked|, BAR_LIMIT) == |c.labels|
    ensures forall i :: 0 <= i < |c.entries| ==>
      c.entries[i] == BarEntry(|c.entries| - 1 - i, ranked[i].stats.totalDuration)
    ensures forall i :: 0 <= i < |c.entries| ==>
      0 <= c.entries[i].x < |c.labels| && c.labels[c.entries[i].x] == ranked[i].stats.name
  {
    var limit := Min(|ranked|, BAR_LIMIT);
    var entries := seq(limit, i requires 0 <= i < limit => BarEntry(limit - 1 - i, ranked[i].stats.totalDuration));
    var labels := seq(limit, i requires 0 <= i < limit => ranked[i].stats.name);
    BarChart(entries, Reverse(labels))
  }

  /** `setupBarChart`: the i-th ranked contact gets a bar at `limit - 1 - i`,
      and after `Collections.reverse` the label at each x names the contact
      whose bar stands there. */
  function SetupBarChart(m: map<string, ContactStats>, order: seq<string>): (c: BarChart)
    requires Enumerates(order, m.Keys)
    ensures |c.entries| == Min(|m|, BAR_LIMIT) == |c.labels|
    ensures forall i :: 0 <= i < |c.entries| ==>
      c.entries[i] == BarEntry(|c.entries| - 1 - i, Ranked(m, order)[i].stats.totalDuration)
    ensures forall i :: 0 <= i < |c.entries| ==>
      0 <= c.entries[i].x < |c.labels| && c.labels[c.entries[i].x] == Ranked(m, order)[i].stats.name
  {
    Bars(Ranked(m, order))
  }

  /** The keys whose contacts get a bar. */
  function ChartedKeys(m: map<string, ContactStats>, order: seq<string>): set<string>
    requires Enumerates(order, m.Keys)
  {
    var ranked := Ranked(m, order);
    set i | 0 <= i < Min(|ranked|, BAR_LIMIT) :: ranked[i].key
  }

  /** Every charted contact talked at least as long as every contact left
      off the chart. */
  lemma ChartedDominate(m: map<string, ContactStats>, order: seq<string>, k: string)
    requires Enumerates(order, m.Keys)
    requires k in m && k !in ChartedKeys(m, order)
    ensures forall i :: 0 <= i < |SetupBarChart(m, order).entries| ==>
      SetupBarChart(m, order).entries[i].seconds >= m[k].totalDuration
  {
    var ranked := Ranked(m, order);
    var j := UnchartedRank(ranked, k, ChartedKeys(m, order));
    RankedBelow(ranked, Min(|ranked|, BAR_LIMIT), j);
  }

  /** The position in the ranking of a key that got no bar. */
  lemma UnchartedRank(ranked: seq<Entry>, k: string, charted: set<string>) returns (j: nat)
    requires exists i :: 0 <= i < |ranked| && ranked[i].key == k
    requires charted == set i | 0 <= i < Min(|ranked|, BAR_LIMIT) :: ranked[i].key
    requires k !in charted
    ensures Min(|ranked|, BAR_LIMIT) <= j < |ranked| && ranked[j].key == k
  {
    j :| 0 <= j < |ranked| && ranked[j].key == k;
  }

  /** In a ranking, every entry above position `j` has at least its total. */
  lemma RankedBelow(ranked: seq<Entry>, limit: nat, j: nat)
    requires forall a, b :: 0 <= a < b < |ranked| ==> ranked[a].stats.totalDuration >= ranked[b].stats.totalDuration
    requires limit <= j < |ranked|
    ensures forall i :: 0 <= i < limit ==> ranked[i].stats.totalDuration >= ranked[j].stats.totalDuration
  {
  }

  /** The x positions are 0 .. limit-1, each used once, and the contact with
      the largest total stands at the highest position. */
  lemma BarPositions(m: map<string, ContactStats>, order: seq<string>)
    requires Enumerates(order, m.Keys)
    ensures var c := SetupBarChart(m, order);
      && (forall i, j :: 0 <= i < j < |c.entries| ==> c.entries[i].x != c.entries[j].x)
      && (forall i :: 0 <= i < |c.entries| ==> 0 <= c.entries[i].x < |c.entries|)
      && (|c.entries| > 0 ==>
            && c.entries[0].x == |c.entries| - 1
            && forall k :: k in m ==> c.entries[0].seconds >= m[k].totalDuration)
  {
    var c := SetupBarChart(m, order);
    var ranked := Ranked(m, order);
    if |c.entries| > 0 {
      forall k | k in m ensures c.entries[0].seconds >= m[k].totalDuration {
        var j :| 0 <= j < |ranked| && ranked[j].key == k;
        assert j == 0 || ranked[0].stats.totalDuration >= ranked[j].stats.totalDuration;
      }
    }
  }

  // ----- The list of "STATS" rows -----

  /** The row `setupRecyclerView` makes for one contact. */
  function StatsRow(s: ContactStats): (r: CallLogItem)
    ensures r.callType == STATS_TYPE
    ensures Split(r.duration, STATS_SEPARATOR) == [Str(s.count), Str(s.totalDuration)]
  {
    CallLogItem(s.name, s.number, STATS_TYPE, 0, StatsData(s.count, s.totalDuration))
  }

  /** `Comparator.comparing(CallLogItem::getName)`. */
  function ByName(): (le: (CallLogItem, CallLogItem) -> bool)
    ensures forall a, b :: le(a, b) <==> CompareTo(a.name, b.name) <= 0
  {
    (a: CallLogItem, b: CallLogItem) => NotAfter(a.name, b.name)
  }

  lemma ByNameIsOrder()
    ensures Total(ByName()) && Transitive(ByName())
  {
    forall a: CallLogItem, b: CallLogItem ensures ByName()(a, b) || ByName()(b, a) {
      NotAfterTotal(a.name, b.name);
    }
    forall a: CallLogItem, b: CallLogItem, c: CallLogItem | ByName()(a, b) && ByName()(b, c)
      ensures ByName()(a, c)
    {
      NotAfterTransitive(a.name, b.name, c.name);
    }
  }

  /** `statsList.sort(...)`: the same rows, in name order. */
  function SortByName(rows: seq<CallLogItem>): (r: seq<CallLogItem>)
    ensures multiset(r) == multiset(rows)
    ensures forall i, j :: 0 <= i < j < |r| ==> NotAfter(r[i].name, r[j].name)
  {
    ByNameIsOrder();
    SortBy(rows, ByName())
  }

  /** The loop of `setupRecyclerView`: a row per value, in map order. */
  function StatsRows(m: map<string, ContactStats>, order: seq<string>): (rows: seq<CallLogItem>)
    requires forall i :: 0 <= i < |order| ==> order[i] in m
    ensures |rows| == |order|
    ensures forall i :: 0 <= i < |order| ==> rows[i] == StatsRow(m[order[i]])
    ensures Enumerates(order, m.Keys) ==> |rows| == |m| && forall k :: k in m ==> StatsRow(m[k]) in rows
  {
    var rows := seq(|order|, i requires 0 <= i < |order| => StatsRow(m[order[i]]));
    RowsCover(m, order, rows);
    rows
  }

  /** An enumeration of the map's keys turns into a row for every contact. */
  lemma RowsCover(m: map<string, ContactStats>, order: seq<string>, rows: seq<CallLogItem>)
    requires forall i :: 0 <= i < |order| ==> order[i] in m
    requires |rows| == |order| && forall i :: 0 <= i < |order| ==> rows[i] == StatsRow(m[order[i]])
    ensures Enumerates(order, m.Keys) ==> |rows| == |m| && forall k :: k in m ==> StatsRow(m[k]) in rows
  {
    if Enumerates(order, m.Keys) {
      EnumerationSize(order, m.Keys);
      forall k | k in m ensures StatsRow(m[k]) in rows {
        var i :| 0 <= i < |order| && order[i] == k;
        assert rows[i] == StatsRow(m[k]);
      }
    }
  }

  /** `setupRecyclerView`: the rows of the map's values, sorted by name. */
  function SetupStatsList(m: map<string, ContactStats>, order: seq<string>): (r: seq<CallLogItem>)
    requires Enumerates(order, m.Keys)
    ensures |r| == |m|
    ensures forall i, j :: 0 <= i < j < |r| ==> NotAfter(r[i].name, r[j].name)
    ensures multiset(r) == multiset(StatsRows(m, order))
  {
    EnumerationSize(order, m.Keys);
    var rows := StatsRows(m, order);
    var r := SortByName(rows);
    assert |r| == |multiset(r)| == |multiset(rows)| == |rows|;
    r
  }

  /** Every row of the stats list is the "STATS" row, dated 0, of some
      contact. */
  lemma StatsListRows(m: map<string, ContactStats>, order: seq<string>)
    requires Enumerates(order, m.Keys)
    ensures var r := SetupStatsList(m, order);
      && (forall i :: 0 <= i < |r| ==> r[i].callType == STATS_TYPE && r[i].date == 0)
      && (forall i :: 0 <= i < |r| ==> exists k :: k in m && r[i] == StatsRow(m[k]))
  {
    var rows := StatsRows(m, order);
    var r := SetupStatsList(m, order);
    forall i | 0 <= i < |r|
      ensures r[i].callType == STATS_TYPE && r[i].date == 0
      ensures exists k :: k in m && r[i] == StatsRow(m[k])
    {
      RowOfList(rows, r, i);
      var j :| 0 <= j < |rows| && rows[j] == r[i];
      assert r[i] == StatsRow(m[order[j]]);
    }
  }

  lemma RowOfList(rows: seq<CallLogItem>, r: seq<CallLogItem>, i: nat)
    requires multiset(r) == multiset(rows) && i < |r|
    ensures exists j :: 0 <= j < |rows| && rows[j] == r[i]
  {
    assert r[i] in multiset(r);
    assert r[i] in rows;
  }

  /** Every contact's row is in the stats list. */
  lemma StatsListCovers(m: map<string, ContactStats>, order: seq<string>)
    requires Enumerates(order, m.Keys)
    ensures forall k :: k in m ==> StatsRow(m[k]) in SetupStatsList(m, order)
  {
    var rows := StatsRows(m, order);
    var r := SetupStatsList(m, order);
    forall k | k in m ensures StatsRow(m[k]) in r {
      var j :| 0 <= j < |order| && order[j] == k;
      assert rows[j] in multiset(rows);
      assert rows[j] in multiset(r);
    }
  }

  // ----- The screen -----

  /** The Intent extras: a map that may be missing, and counters that may
      be missing. */
  datatype Extras = Extras(
    statsMap: Option<map<string, ContactStats>>,
    incoming: Option<int32>,
    outgoing: Option<int32>,
    missed: Option<int32>)

  datatype PieChart = PieChart(incoming: int32, outgoing: int32, missed: int32)

  datatype StatsScreen = StatsScreen(bar: Option<BarChart>, list: Option<seq<CallLogItem>>, pie: Option<PieChart>)

  /** `onCreate`: bar chart and list only for a present, non-empty map; a
      missing counter reads as 0; the pie only when some counter is
      positive. */
  function OnCreate(extras: Extras, order: seq<string>): (s: StatsScreen)
    requires extras.statsMap.Some? ==> Enumerates(order, extras.statsMap.value.Keys)
    ensures s.bar.Some? <==> extras.statsMap.Some? && |extras.statsMap.value| > 0
    ensures s.list.Some? <==> s.bar.Some?
    ensures s.bar.Some? ==> s.bar.value == SetupBarChart(extras.statsMap.value, order)
    ensures s.list.Some? ==> s.list.value == SetupStatsList(extras.statsMap.value, order)
    ensures s.pie.Some? <==> extras.incoming.GetOr(0) > 0 || extras.outgoing.GetOr(0) > 0 || extras.missed.GetOr(0) > 0
    ensures s.pie.Some? ==> s.pie.value == PieChart(extras.incoming.GetOr(0), extras.outgoing.GetOr(0), extras.missed.GetOr(0))
  {
    var incoming := extras.incoming.GetOr(0);
    var outgoing := extras.outgoing.GetOr(0);
    var missed := extras.missed.GetOr(0);
    var charts :=
      if extras.statsMap.Some? && |extras.statsMap.value| != 0 then
        (Some(SetupBarChart(extras.statsMap.value, order)), Some(SetupStatsList(extras.statsMap.value, order)))
      else (None, None);
    var pie := if incoming > 0 || outgoing > 0 || missed > 0 then Some(PieChart(incoming, outgoing, missed)) else None;
    StatsScreen(charts.0, charts.1, pie)
  }
}

=== FILE: wrappers.dfy ===
/** Failure-carrying values: `Option` for a value that may be absent (a null
    Intent extra, a contact lookup that found no row) and `Result` for an
    operation that can throw (a `NumberFormatException` out of
    `Integer.parseInt`). */
module Wrappers {

  datatype Option<+T> = None | Some(value: T) {

    /** The carried value, or `default` when there is none. */
    function GetOr(default: T): T {
      match this
      case Some(v) => v
      case None => default
    }
  }

  datatype Result<+T, +E> = Ok(value: T) | Err(error: E)
}
